=== FILE: README.md ===
# A verified model of the mj36 app's data store and session manager

The app is a private two-person social app that runs in the browser. All of
its state is one JSON document in browser storage: users, posts, messages,
stories, novels, settings and screenshot records. Two objects own that state:

- `DataManager` (js/data.js) reads and writes the whole document on every
  operation, notifies registered watchers after each save, and owns the
  password checksum.
- `AuthManager` (js/auth.js) keeps the logged-in user, the stored session and
  the app lock (a PIN kept as a checksum in the settings).

The model keeps the source's form:

- `checksum.dfy` (`Checksum`): the 32-bit string checksum behind
  `hashPassword`, with JavaScript's `ToInt32` wrap-around written out, and its
  decimal rendering. The loop of `hashPassword` is a method proved against the
  recursive definition.
- `records.dfy` (`Records`): the records, the settings values, the seeded
  document, watcher events and deliveries.
- `sequences.dfy` (`Sequences`): `find`, `findIndex`, `indexOf`, `filter`,
  `splice` and the descending sort, as functions on sequences.
- `store_spec.dfy` (`StoreSpec`): what each store operation does to the
  document, as functions of values, with lemmas. These cover the like toggle
  and the likes/likers invariant, deletion, cleanup, the settings merge and
  the feature flags.
- `data_manager.dfy` (`Store`): the `DataManager` class. Its document,
  watcher list and the log of watcher calls and caught watcher exceptions are
  fields. Every method states its new state in terms of `StoreSpec`.
- `auth_spec.dfy` (`AuthSpec`): the manager's decisions as functions:
  - session validity;
  - the ordered checks of login, registration, password change and profile
    update;
  - the PIN check.

  Its lemmas cover the lifetime of a session, register-then-login, unique
  usernames, the seeded accounts and enable-then-unlock.
- `auth_manager.dfy` (`Auth`): the `AuthManager` class over one
  `Store.DataManager`. The session entry and the lock marker are fields.

Inputs the source takes from the environment become parameters:

- The clock is `now`, in milliseconds since the epoch.
- The id a new record gets (`Date.now()` in the source) is `id`.
- What storage held at start-up is `stored` or `storedSession`/`storedLock`.
- A watcher callback is an opaque `WatcherId`. Which callbacks throw is the
  set `faulty`.

## Model

| member | source | states |
|---|---|---|
| Checksum.ToInt32 | js/data.js:156 | the result is the signed 32-bit value congruent to the input modulo 2^32 |
| Checksum.ToInt32Congruent | js/data.js:155-156 | inputs that differ by a multiple of 2^32 wrap to the same 32-bit value |
| Checksum.ShiftLeft5 | js/data.js:155 | `hash << 5` on a 32-bit operand is multiplication by 32 wrapped to 32 bits |
| Checksum.Step | js/data.js:155-156 | one step `(h << 5) - h + c` on 32-bit integers is `31*h + c` wrapped to 32 bits |
| Checksum.Checksum | js/data.js:150-159 | the checksum of any string is a signed 32-bit integer |
| Checksum.ChecksumAppend | js/data.js:153-157 | appending a character multiplies the checksum by 31, adds the code and wraps |
| Checksum.DigitChar | js/data.js:158 | a digit below ten renders as the character of that digit |
| Checksum.Digits | js/data.js:158 | a natural number renders as a non-empty string of decimal digits with no leading zero, except for zero itself |
| Checksum.Decimal | js/data.js:158 | `toString` starts with a minus sign exactly for negative numbers, and writes no leading zero after it or at the start unless the number is zero |
| Checksum.DigitsRoundTrip | js/data.js:158 | reading back the digits of a natural number gives the number |
| Checksum.DecimalRoundTrip | js/data.js:158 | parsing the decimal rendering of any integer gives the integer back |
| Checksum.PasswordHash | js/data.js:150-159 | the stored hash parses back to the password's checksum, starts with a minus sign exactly when the checksum is negative, and starts with a zero only for checksum zero |
| Checksum.VerifyPassword | js/data.js:162-164 | a hash that verifies a password parses back to that password's checksum |
| Checksum.VerifyPasswordIff | js/data.js:162-164 | a password verifies against another's hash exactly when their checksums are equal |
| Checksum.ToInt32Small | js/data.js:156 | a value that already fits in 31 bits is not changed by the 32-bit wrap |
| Checksum.ChecksumPair | js/data.js:150-159 | the checksum of a two-character string is `31*a + b`, with no wrap |
| Checksum.WeakChecksumCollision | js/data.js:150-164 | two different passwords ("Aa", "BB") verify against the same hash |
| Checksum.HashPassword | js/data.js:150-159 | the loop computes the decimal rendering of the string's checksum |
| Records.Get | js/auth.js:254 | a settings key is present exactly when reading it yields a value, and that value is the stored one; StoreSpec.GetAfterMerge relates it to the merge |
| Records.Truthy | js/auth.js:240 | a setting tests true exactly when it is present and is not `null`, `false` or the empty string, the JavaScript falsy values among settings |
| Records.DefaultSettings | js/data.js:115-129 | the seeded settings hold the two codes, turn every listed feature on, and leave the lock off with no PIN |
| Records.DefaultDocument | js/data.js:5-144 | the seed has two users and no admin, consistent like counts, only unexpired stories at seeding time, and the lock off |
| Records.SeedUsers | js/data.js:6-25 | two seeded users, neither an admin, both created and active at seeding time |
| Records.SeedPosts | js/data.js:26-54 | every seeded post is dated before seeding and liked once, by the one user it lists |
| Records.SeedMessages | js/data.js:55-88 | the seeded messages are dated before seeding, in strictly increasing time order |
| Records.SeedStories | js/data.js:89-98 | the seeded story was posted before seeding and is live until 24 hours after its posting |
| Records.SeedNovels | js/data.js:99-114 | the seeded novels are dated before seeding |
| Records.SeedScreenshots | js/data.js:130-143 | the seeded screenshot records are dated before seeding |
| Sequences.FindIndex | js/data.js:193 | the result is the first index whose element satisfies the test, or -1 when none does |
| Sequences.FindIndexAppend | js/data.js:193 | the first match in a concatenation is in the first part if it has one, else shifted from the second |
| Sequences.IndexOf | js/data.js:252 | -1 exactly when the element is absent, otherwise the index of its first occurrence |
| Sequences.RemoveAt | js/data.js:254 | removing one index keeps every element before it in place, shifts every element after it down by one, and removes one copy of that element |
| Sequences.Filter | js/data.js:268 | every element of the result is from the input and passes; every passing element of the input is in the result |
| Sequences.FilterCounts | js/data.js:268 | a passing element occurs in the result exactly as often as in the input; a failing one never |
| Sequences.FilterConcat | js/data.js:268 | filtering a concatenation filters each part, so relative order is kept |
| Sequences.FilterOfFilter | js/data.js:392-397 | filtering by a stronger condition after a weaker one equals filtering by the stronger one |
| Sequences.FilterAll | js/data.js:268 | filtering a sequence whose elements all pass returns it unchanged |
| Sequences.Insert | js/data.js:229 | inserting adds exactly that one element to the sequence |
| Sequences.InsertBounded | js/data.js:229 | a bound on the keys of the element and of the sequence still holds after inserting |
| Sequences.InsertSorted | js/data.js:229 | inserting into a non-increasing sequence keeps it non-increasing |
| Sequences.SortDesc | js/data.js:229 | sorting by a descending key yields a non-increasing permutation of the input |
| StoreSpec.UserIndex | js/auth.js:429 | the index of the first user with the id, or -1 exactly when no user has it |
| StoreSpec.UsernameIndex | js/data.js:197-199 | the index of the first user with the username, or -1 exactly when none has it |
| StoreSpec.UserById | js/data.js:192-194 | a user is found exactly when some user has the id, and it is the first such user |
| StoreSpec.UserByUsername | js/data.js:197-199 | a user is found exactly when some user has the username, and it is the first such user |
| StoreSpec.PostIndex | js/data.js:250 | the index of the first post with the id, or -1 exactly when there is none |
| StoreSpec.ToggleLike | js/data.js:252-259 | a present liker loses its first occurrence, the others keep their order, and the count drops by one; an absent liker is appended and the count rises by one; no other field changes |
| StoreSpec.ToggleTwiceFromAbsent | js/data.js:248-263 | liking then unliking a post the user had not liked restores the post exactly |
| StoreSpec.ToggleTwiceFromPresent | js/data.js:248-263 | unliking then liking restores the count and the set of likers, with the liker moved to the end |
| StoreSpec.ToggleKeepsLikesConsistent | js/data.js:248-263 | toggling keeps `likes == likedBy.length` with no liker listed twice |
| StoreSpec.ToggleKeepsAllConsistent | js/data.js:248-263 | toggling one post keeps every post consistent |
| StoreSpec.WithoutPost | js/data.js:266-270 | every remaining post has a different id and was stored; every stored post with a different id remains |
| StoreSpec.WithoutPostCounts | js/data.js:266-270 | each post with a different id keeps its number of occurrences; posts with the id are all gone |
| StoreSpec.WithoutAbsentPost | js/data.js:266-270 | deleting an id no post has leaves the posts unchanged |
| StoreSpec.WithoutPostConcat | js/data.js:266-270 | deletion works piecewise on concatenated post lists |
| StoreSpec.WithoutPostKeepsConsistent | js/data.js:266-270 | deleting posts keeps every remaining post consistent |
| StoreSpec.ActiveStories | js/data.js:291-294 | every story returned is stored and unexpired; every stored unexpired story is returned |
| StoreSpec.ActiveStoriesCounts | js/data.js:291-294 | each unexpired story is returned as often as it is stored, and no expired one |
| StoreSpec.ActiveStoriesConcat | js/data.js:291-294 | the query works piecewise on concatenated lists, so stored order is kept |
| StoreSpec.RecentScreenshots | js/data.js:395-397 | every record kept was taken after thirty days before now and was stored; every such stored record is kept |
| StoreSpec.RecentScreenshotsCounts | js/data.js:395-397 | each recent record is kept as often as it is stored, and no older one |
| StoreSpec.RecentScreenshotsConcat | js/data.js:395-397 | the pruning works piecewise on concatenated lists, so stored order is kept |
| StoreSpec.CleanedUp | js/data.js:390-402 | cleanup keeps exactly the active stories and the screenshots of the last thirty days, touches nothing else, and never adds a record |
| StoreSpec.CleanupInvisibleLater | js/data.js:390-402 | from now on, cleanup changes neither the active stories nor the recent screenshots; cleaning twice equals once |
| StoreSpec.NewUser | js/data.js:202-215 | a new user has the given id, name and avatar, is not admin, is stamped now, and its stored hash verifies the given password |
| StoreSpec.NewPost | js/data.js:233-245 | a new post carries the input, is stamped now, and starts with no likes and no likers |
| StoreSpec.NewStory | js/data.js:297-308 | a new story is stamped now and expires exactly 24 hours later |
| StoreSpec.NewStoryActiveForOneDay | js/data.js:291-308 | a new story is listed as active exactly while less than 24 hours have passed |
| StoreSpec.NewMessage | js/data.js:278-288 | a new message carries the given id, sender, receiver, content and kind, stamped now |
| StoreSpec.NewNovel | js/data.js:316-326 | a new novel carries the given id, title, content and author, stamped now |
| StoreSpec.NewScreenshot | js/data.js:355-366 | a new record carries the given id, user and page, stamped now |
| StoreSpec.AddPostKeepsConsistent | js/data.js:233-245 | adding a post keeps every post consistent |
| StoreSpec.DefaultPostsConsistent | js/data.js:26-54 | the seeded posts are consistent |
| StoreSpec.MergeSettings | js/data.js:334-339 | the merge has the keys of both; patched keys take the patch's value, the others keep theirs |
| StoreSpec.GetAfterMerge | js/data.js:334-339 | after the merge, a key reads as the patch has it when patched, and as before otherwise |
| StoreSpec.SetFeature | js/data.js:342-347 | fails exactly when there is no features object; otherwise sets that one flag and leaves every other flag and setting as it was |
| Store.Deliveries | js/data.js:379-387 | one call per watcher, in registration order, each with the event |
| Store.DeliveriesAppend | js/data.js:379-387 | the calls for one more watcher are the earlier calls plus one |
| Store.Failing | js/data.js:379-387 | every logged exception comes from a registered faulty watcher, and every faulty watcher's exception is logged |
| Store.FailingCounts | js/data.js:379-387 | each faulty watcher is logged as often as it is registered, and no other watcher |
| Store.FailingAppend | js/data.js:379-387 | one more watcher adds a logged exception exactly when it is faulty |
| Store.NotifyStep | js/data.js:380-386 | one loop step extends the calls made and the exceptions logged by that watcher's share |
| Store.DataManager.constructor | js/data.js:3-172 | the constructor with `initializeData`: the document is what storage held, or the seed when it held nothing; no watchers yet |
| Store.DataManager.NotifyWatchers | js/data.js:379-387 | every watcher is called in order; each faulty one's exception is logged and the loop goes on |
| Store.DataManager.SaveData | js/data.js:181-184 | the document is replaced and every watcher is told `dataChanged` with it |
| Store.DataManager.AddWatcher | js/data.js:371-373 | the callback is appended |
| Store.DataManager.RemoveWatcher | js/data.js:375-377 | every registration of the callback goes, all others stay in order |
| Store.DataManager.GetUserById | js/data.js:192-194 | the user found is the first stored user with the id; none is found only when no stored user has it |
| Store.DataManager.GetUserByUsername | js/data.js:197-199 | the user found is the first stored user with the username; none only when no stored user has it |
| Store.DataManager.AddUser | js/data.js:202-215 | appends the new user, with its password hashed, and saves |
| Store.DataManager.UpdateUserActivity | js/data.js:218-225 | stamps the first user with the id and saves; with no such user nothing at all happens |
| Store.DataManager.GetPosts | js/data.js:228-230 | the posts, newest first, as a permutation of the stored ones |
| Store.DataManager.AddPost | js/data.js:233-245 | appends the new post and saves; likes stay consistent |
| Store.DataManager.TogglePostLike | js/data.js:248-263 | toggles the like on the first post with the id and saves, returning it; an unknown id changes nothing and returns nothing; likes stay consistent |
| Store.DataManager.DeletePost | js/data.js:266-270 | removes every post with the id and saves; likes stay consistent |
| Store.DataManager.GetMessages | js/data.js:273-275 | the messages, oldest first, as a permutation of the stored ones |
| Store.DataManager.AddMessage | js/data.js:278-288 | appends the new message and saves |
| Store.DataManager.GetActiveStories | js/data.js:291-294 | the active stories in stored order (ActiveStories, whose order ActiveStoriesConcat proves); every stored unexpired story, as often as it is stored, and no expired one |
| Store.DataManager.AddStory | js/data.js:297-308 | appends a story expiring 24 hours from now and saves |
| Store.DataManager.GetNovels | js/data.js:311-313 | the novels, newest first, as a permutation of the stored ones |
| Store.DataManager.AddNovel | js/data.js:316-326 | appends the new novel and saves |
| Store.DataManager.UpdateSettings | js/data.js:334-339 | merges the patch over the settings, saves, and returns the merged settings |
| Store.DataManager.UpdateFeatureStatus | js/data.js:342-347 | sets the flag, saves, then reports `featureChanged`; without a features object nothing changes |
| Store.DataManager.GetScreenshots | js/data.js:350-352 | the screenshot records, newest first, as a permutation of the stored ones |
| Store.DataManager.AddScreenshot | js/data.js:355-366 | appends the new record and saves |
| Store.DataManager.Cleanup | js/data.js:390-402 | drops expired stories and screenshots older than thirty days, and saves |
| Store.DataManager.ResetData | js/data.js:405-409 | restores the seed, reporting `dataChanged` and then `dataReset` to every watcher |
| Store.DataManager.ImportData | js/data.js:417-426 | a parsed document replaces the stored one and is saved; unparsable input changes nothing and reports false |
| AuthSpec.SavedSessionLifetime | js/auth.js:39-55 | a saved session for a stored user is valid exactly while at most seven days old |
| AuthSpec.SessionOfRemovedUser | js/auth.js:52-54 | a session whose user id no longer resolves is invalid |
| AuthSpec.Snapshot | js/auth.js:58-67 | the session copy holds the user's id, username, avatar and admin flag |
| AuthSpec.SessionFor | js/auth.js:58-67 | the saved session holds the user's snapshot and is stamped now |
| AuthSpec.IsValidSession | js/auth.js:39-55 | a corrupt session, or one without a user or a timestamp, is invalid; one older than seven days is invalid; one at most seven days old whose user resolves is valid; a valid one names a stored user; with an unparsable timestamp only the user lookup decides |
| AuthSpec.SnapshotIgnoresCredentials | js/auth.js:58-67 | the session copy of a user is the same whatever the password hash and activity times; it keeps the id and admin flag |
| AuthSpec.VerifyGlobalCode | js/auth.js:80-83 | a code passes exactly when the settings hold that very string as `globalCode` |
| AuthSpec.VerifyAdminCode | js/auth.js:86-89 | a code passes exactly when the settings hold that very string as `adminCode` |
| AuthSpec.CodesAreUnique | js/auth.js:80-89 | for any settings, at most one global code and at most one admin code pass |
| AuthSpec.SeededCodes | js/data.js:115-129 | the seeded settings accept exactly the seeded global and admin codes |
| AuthSpec.CodesSurviveLockChanges | js/auth.js:80-89 | enabling or disabling the lock leaves which global and admin codes pass as it was |
| AuthSpec.LoginCheck | js/auth.js:92-124 | a bad global code fails with InvalidGlobalCode; then an unknown username with UnknownUsername; then the first user with the name is returned exactly when its hash verifies the password, else WrongPassword |
| AuthSpec.RegisterError | js/auth.js:127-143 | a bad global code fails first; then a username in use gives UsernameTaken; then a password shorter than six gives PasswordTooShort; otherwise it passes |
| AuthSpec.RegisterAvatar | js/auth.js:149 | a missing or empty avatar becomes the default one |
| AuthSpec.RegisteredUser | js/auth.js:146-150 | the registered user has the given id and name, the avatar or its default, is not an admin, is stamped now, and its hash verifies the given password |
| AuthSpec.RegisterThenLogin | js/auth.js:92-165 | after a successful registration the same credentials log in as the new user |
| AuthSpec.RegisterKeepsUsernamesUnique | js/auth.js:134-150 | registration keeps usernames unique, and registering the same name again fails with UsernameTaken |
| AuthSpec.SeededLogin | js/auth.js:92-124 | both seeded users log in with the seeded code and password |
| AuthSpec.UnlockError | js/auth.js:251-266 | a lock not enabled, or without a PIN, gives LockNotEnabled; otherwise it passes exactly when the stored PIN is the hash of the PIN given, else WrongPin |
| AuthSpec.EnableThenUnlock | js/auth.js:206-266 | after enabling the lock with a PIN, exactly the PINs with its checksum unlock; others get WrongPin |
| AuthSpec.DisableThenUnlock | js/auth.js:225-256 | after disabling the lock, every unlock attempt reports the lock as not enabled |
| AuthSpec.EnablePatch | js/auth.js:214-217 | the patch sets exactly the lock flag and the PIN: the lock reads enabled and the PIN is the given hash |
| AuthSpec.DisablePatch | js/auth.js:226-229 | the patch sets exactly the lock flag and the PIN, both reading as off |
| AuthSpec.PasswordChangeCheck | js/auth.js:406-430 | not logged in, then user not found, then a current password that does not verify, then a new one shorter than six, each fails with its error in that order; otherwise the index of the first user with the session id |
| AuthSpec.ChangedPasswordVerifies | js/auth.js:431 | the new hash accepts exactly the passwords with the new password's checksum |
| AuthSpec.HeldByOther | js/auth.js:458 | true exactly when a user with a different id has the name |
| AuthSpec.ProfileCheck | js/auth.js:442-461 | not logged in, then user not found, then a new username held by another user, each fails with its error in that order; otherwise the index of the first user with the session id |
| AuthSpec.ApplyProfile | js/auth.js:456-469 | only the given, non-empty username and avatar change |
| AuthSpec.ProfileKeepsUsernamesUnique | js/auth.js:456-464 | with unique ids, a profile update keeps usernames unique |
| Auth.AuthManager.constructor | js/auth.js:3-16 | loads the stored session, then adopts the stored lock flag |
| Auth.AuthManager.LoadSession | js/auth.js:19-36 | a valid stored session becomes the current user and records activity; an invalid or corrupt one is cleared; no entry changes nothing |
| Auth.AuthManager.SaveSession | js/auth.js:58-71 | stores and adopts a password-free snapshot of the user, stamped now |
| Auth.AuthManager.ClearSession | js/auth.js:74-77 | no session and no current user |
| Auth.AuthManager.Login | js/auth.js:92-124 | follows LoginCheck: on success the user's snapshot is the current user, `isLoggedIn` holds, `isAdmin` is the user's flag, and the session is saved with activity recorded; on failure nothing changes |
| Auth.AuthManager.Register | js/auth.js:127-165 | follows RegisterError: on success the new user is stored and logged in, and is not an admin; on failure nothing changes |
| Auth.AuthManager.Logout | js/auth.js:168-172 | no session and no current user, so `isLoggedIn`, `isAdmin` and `isAppLocked` are all false and there is no lock marker |
| Auth.AuthManager.IsLoggedIn | js/auth.js:175-177 | true exactly when there is a current user; Login, Register and UpdateProfile make it true, Logout false |
| Auth.AuthManager.GetCurrentUser | js/auth.js:180-182 | a user exactly when logged in; after a login it is the user's snapshot |
| Auth.AuthManager.IsAdmin | js/auth.js:185-187 | true only when logged in as a user flagged admin; after a login it is that user's flag, after a registration false |
| Auth.AuthManager.UpdateUserActivity | js/auth.js:190-194 | stamps the current user in the store; without one, nothing changes |
| Auth.AuthManager.CheckLockState | js/auth.js:197-203 | adopts the stored marker's flag; without a marker the flag stays |
| Auth.AuthManager.EnableLock | js/auth.js:206-222 | a PIN shorter than four is refused with nothing changed; otherwise the lock is enabled with the PIN's hash; the lock flag is untouched |
| Auth.AuthManager.DisableLock | js/auth.js:225-235 | turns the lock off, drops the PIN, and leaves the app unlocked with no marker |
| Auth.AuthManager.LockApp | js/auth.js:238-248 | when the lock is enabled the app reports locked and a marker is stored; otherwise nothing changes |
| Auth.AuthManager.UnlockApp | js/auth.js:251-266 | follows UnlockError: a correct PIN leaves the app reporting unlocked and clears the marker; otherwise the lock state is kept |
| Auth.AuthManager.ClearLockState | js/auth.js:269-272 | unlocked and no marker |
| Auth.AuthManager.IsAppLocked | js/auth.js:401-403 | the lock flag; LockApp on an enabled lock makes it true, UnlockApp with the right PIN, DisableLock and Logout make it false |
| Auth.AuthManager.ChangePassword | js/auth.js:406-439 | follows PasswordChangeCheck: on success only that user's hash changes, and the document is saved; on failure nothing changes |
| Auth.AuthManager.UpdateProfile | js/auth.js:442-478 | follows ProfileCheck: on success the stored user and the session take the update and the same user stays logged in; on failure nothing changes, the current user included |

## Left out

- Storage I/O and JSON are not modelled. The document, the session entry and the lock marker are values. A corrupt session entry is the `Corrupt` input, which the source catches and clears.
- An unparsable main document is not modelled. `initializeData` re-seeds only when storage is empty (js/data.js:168-171), and `getData` would then throw on every call (js/data.js:177); the model's stored document is always a parsed one.
- `getData`, `getUsers` and `getSettings` are plain reads of `doc`. No contract states them.
- `exportData` (pretty-printed JSON) is not modelled: JSON text is out of scope.
- The clock, `Date.now()` ids and ISO date strings become parameters. Timestamps are integer milliseconds, so time zones and date formatting are not modelled.
- The freshness of `Date.now()` ids is not guaranteed. Lemmas that need unique ids ask for them.
- The lock overlay (DOM, styles, the unlock form), the redirect in `logout` and the page-load overlay check are UI and are not modelled.
- The hourly `cleanup` timer, the five-minute activity timer and the `async` keyword are not modelled. Each operation runs to completion in the model.
- Watcher callbacks are opaque ids. A watcher that re-enters the store from inside a callback is not modelled.
- Checksum.Checksum: characters are treated as code units. Characters outside the 16-bit range, which JavaScript splits into two code units, are not modelled.
- AuthSpec.RegisterError, AuthSpec.PasswordChangeCheck and Auth.AuthManager.EnableLock: the length limits count characters, where JavaScript's `.length` counts UTF-16 code units. The two differ only for characters outside the 16-bit range.
- Records.DefaultDocument: the seeded post, message, story and novel texts are placeholders. The Arabic page names of the screenshots are replaced by English placeholders.
- Sequences.SortDesc: the contract does not state that equal keys keep their input order, which `Array.prototype.sort` guarantees. The same holds for Store.DataManager.GetPosts, Store.DataManager.GetMessages, Store.DataManager.GetNovels and Store.DataManager.GetScreenshots, which sort with it.
- Auth.AuthManager.CheckLockState: only well-formed lock markers are modelled. An unparsable marker makes the source's constructor throw.
- Auth.AuthManager.LoadSession: a session user without an `id` field, and timestamps JavaScript parses with its own date rules, are not modelled. A stamp is absent, unparsable or a millisecond value.
- StoreSpec.NewUser: the spread of the caller's fields could override `id` or other fields. The model takes only the documented input fields.
- Store.DataManager.UpdateFeatureStatus: a missing `features` object makes the source throw. The model reports `false` and leaves the state untouched.
- A session exactly seven days old is still valid: the check is `sessionAge > maxAge` (js/auth.js:48).
- Auth.AuthManager.EnableLock: a PIN shorter than four characters makes the source throw (js/auth.js:207-209). The model returns `Fail(PinTooShort)` instead, with nothing changed.
- A session timestamp that is not a date gives an age of `NaN`, which passes the age check. The model keeps this as written.

=== FILE: auth_manager.dfy ===
/**
 * `AuthManager` (js/auth.js): the current user, the stored session and the
 * app lock, over one `DataManager`. The two storage entries it owns (the
 * session and the lock marker) are fields; `None` is an absent or empty entry.
 */
module Auth {
  import opened Records
  import opened StoreSpec
  import opened AuthSpec
  import Checksum
  import Store

  class AuthManager {
    /** The data manager every check reads and every change goes through. */
    const store: Store.DataManager
    /** The logged-in user's snapshot, or None. */
    var currentUser: Option<SessionUser>
    /** Whether the app is locked behind the PIN. */
    var isLocked: bool
    /** The stored session entry. */
    var session: Option<StoredSession>
    /** The stored lock marker. */
    var lockMarker: Option<LockMarker>

    /**
     * What `loadSession` leaves behind when storage held `stored`, the current
     * user was `user0` and the store was in the given state: nothing changes
     * without an entry; a valid session becomes the current user and has its
     * activity recorded; any other entry is cleared along with the current user.
     */
    ghost predicate SessionLoaded(stored: Option<StoredSession>, user0: Option<SessionUser>, doc0: Document,
                                  deliveries0: seq<Delivery>, errors0: seq<WatcherId>, now: int)
      reads this, store
    {
      match stored
      case None =>
        && session == None && currentUser == user0
        && store.doc == doc0 && store.deliveries == deliveries0 && store.errors == errors0
      case Some(s) =>
        if IsValidSession(doc0.users, s, now) then
          && session == stored && currentUser == s.user
          && store.ActivityRecorded(doc0, deliveries0, errors0, s.user.value.id, now)
        else
          && session == None && currentUser == None
          && store.doc == doc0 && store.deliveries == deliveries0 && store.errors == errors0
    }

    /** `new AuthManager()`: loads the stored session, then the stored lock state. */
    constructor (store: Store.DataManager, storedSession: Option<StoredSession>, storedLock: Option<LockMarker>, now: int)
      modifies store`doc, store`deliveries, store`errors
      ensures this.store == store
      ensures SessionLoaded(storedSession, None, old(store.doc), old(store.deliveries), old(store.errors), now)
      ensures lockMarker == storedLock
      ensures isLocked == (storedLock.Some? && storedLock.value.isLocked)
    {
      this.store := store;
      currentUser := None;
      isLocked := false;
      session := storedSession;
      lockMarker := storedLock;
      new;
      LoadSession(now);
      CheckLockState();
    }

    // ------------------------------------------------------------ sessions

    /** `loadSession` at `now`. */
    method LoadSession(now: int)
      modifies this`currentUser, this`session, store`doc, store`deliveries, store`errors
      ensures SessionLoaded(old(session), old(currentUser), old(store.doc), old(store.deliveries), old(store.errors), now)
    {
      if session.Some? {
        var s := session.value;
        if IsValidSession(store.doc.users, s, now) {
          currentUser := s.user;
          UpdateUserActivity(now);
        } else {
          ClearSession();
        }
      }
    }

    /** `saveSession(user)` at `now`: stores and adopts the user's password-free snapshot. */
    method SaveSession(user: User, now: int)
      modifies this`currentUser, this`session
      ensures session == Some(SessionFor(user, now))
      ensures currentUser == Some(Snapshot(user))
    {
      session := Some(SessionFor(user, now));
      currentUser := Some(Snapshot(user));
    }

    /** `clearSession`. */
    method ClearSession()
      modifies this`currentUser, this`session
      ensures session == None && currentUser == None
    {
      session := None;
      currentUser := None;
    }

    /** `login` at `now`: the checks of LoginCheck, then a new session and an activity stamp. */
    method Login(globalCode: string, username: string, password: string, now: int) returns (r: Result<SessionUser>)
      modifies this`currentUser, this`session, store`doc, store`deliveries, store`errors
      ensures match LoginCheck(old(store.doc), globalCode, username, password)
        case Err(e) =>
          && r == Err(e) && currentUser == old(currentUser) && session == old(session)
          && unchanged(store)
        case Ok(u) =>
          && r == Ok(Snapshot(u)) && currentUser == Some(Snapshot(u)) && session == Some(SessionFor(u, now))
          && IsLoggedIn() && GetCurrentUser() == Some(Snapshot(u)) && IsAdmin() == u.isAdmin
          && store.ActivityRecorded(old(store.doc), old(store.deliveries), old(store.errors), u.id, now)
    {
      if !VerifyGlobalCode(store.doc.settings, globalCode) {
        return Err(InvalidGlobalCode);
      }
      var user := store.GetUserByUsername(username);
      if user.None? {
        return Err(UnknownUsername);
      }
      if !Checksum.VerifyPassword(password, user.value.password) {
        return Err(WrongPassword);
      }
      SaveSession(user.value, now);
      UpdateUserActivity(now);
      r := Ok(currentUser.value);
    }

    /** `register` at `now` with the fresh id `id`: the checks of RegisterError, then the new user is stored and logged in. */
    method Register(globalCode: string, username: string, password: string, avatar: Option<string>, id: int, now: int)
      returns (r: Result<SessionUser>)
      modifies this`currentUser, this`session, store`doc, store`deliveries, store`errors
      ensures match RegisterError(old(store.doc), globalCode, username, password)
        case Some(e) =>
          && r == Err(e) && currentUser == old(currentUser) && session == old(session)
          && unchanged(store)
        case None =>
          var u := RegisteredUser(username, password, avatar, id, now);
          && store.doc == old(store.doc).(users := old(store.doc).users + [u])
          && store.Saved(old(store.deliveries), old(store.errors))
          && r == Ok(Snapshot(u)) && currentUser == Some(Snapshot(u)) && session == Some(SessionFor(u, now))
          && IsLoggedIn() && !IsAdmin()
    {
      if !VerifyGlobalCode(store.doc.settings, globalCode) {
        return Err(InvalidGlobalCode);
      }
      var existing := store.GetUserByUsername(username);
      if existing.Some? {
        return Err(UsernameTaken);
      }
      if |password| < MIN_PASSWORD_LENGTH {
        return Err(PasswordTooShort);
      }
      var user := store.AddUser(UserInput(username, password, RegisterAvatar(avatar)), id, now);
      SaveSession(user, now);
      r := Ok(currentUser.value);
    }

    /** `logout`: clears the session and the lock state (the redirect is left out). */
    method Logout()
      modifies this`currentUser, this`session, this`isLocked, this`lockMarker
      ensures currentUser == None && session == None
      ensures !isLocked && lockMarker == None
      ensures !IsLoggedIn() && GetCurrentUser() == None && !IsAdmin() && !IsAppLocked()
    {
      ClearSession();
      ClearLockState();
    }

    /** `isLoggedIn`. */
    function IsLoggedIn(): (b: bool)
      reads this
      ensures b <==> currentUser != None
    {
      currentUser.Some?
    }

    /** `getCurrentUser`. */
    function GetCurrentUser(): (u: Option<SessionUser>)
      reads this
      ensures u.Some? <==> IsLoggedIn()
    {
      currentUser
    }

    /** `isAdmin`: logged in as a user whose snapshot carries the admin flag. */
    function IsAdmin(): (b: bool)
      reads this
      ensures b ==> IsLoggedIn()
      ensures b <==> currentUser.Some? && currentUser.value.isAdmin
    {
      currentUser.Some? && currentUser.value.isAdmin
    }

    /** `updateUserActivity` at `now`: stamps the current user, if any. */
    method UpdateUserActivity(now: int)
      modifies store`doc, store`deliveries, store`errors
      ensures currentUser.None? ==> unchanged(store)
      ensures currentUser.Some? ==>
        store.ActivityRecorded(old(store.doc), old(store.deliveries), old(store.errors), currentUser.value.id, now)
    {
      if currentUser.Some? {
        store.UpdateUserActivity(currentUser.value.id, now);
      }
    }

    // ------------------------------------------------------------ lock

    /** `checkLockState`: adopts the stored marker's flag; without a marker the flag stays. */
    method CheckLockState()
      modifies this`isLocked
      ensures isLocked == if lockMarker.Some? then lockMarker.value.isLocked else old(isLocked)
    {
      if lockMarker.Some? {
        isLocked := lockMarker.value.isLocked;
      }
    }

    /**
     * `enableLock(pin)`: a PIN shorter than four is refused; otherwise the lock is
     * enabled with the PIN's hash. The lock flag itself is not touched.
     */
    method EnableLock(pin: string) returns (r: Outcome)
      modifies store`doc, store`deliveries, store`errors
      ensures |pin| < MIN_PIN_LENGTH ==> r == Fail(PinTooShort) && unchanged(store)
      ensures |pin| >= MIN_PIN_LENGTH ==>
        && r == Pass
        && store.doc == old(store.doc).(settings := MergeSettings(old(store.doc.settings), EnablePatch(Checksum.PasswordHash(pin))))
        && store.Saved(old(store.deliveries), old(store.errors))
    {
      if |pin| < MIN_PIN_LENGTH {
        return Fail(PinTooShort);
      }
      var hash := Checksum.HashPassword(pin);
      var merged := store.UpdateSettings(EnablePatch(hash));
      r := Pass;
    }

    /** `disableLock`: turns the lock off, drops the PIN and clears the lock state. */
    method DisableLock() returns (r: bool)
      modifies this`isLocked, this`lockMarker, store`doc, store`deliveries, store`errors
      ensures r
      ensures store.doc == old(store.doc).(settings := MergeSettings(old(store.doc.settings), DisablePatch()))
      ensures store.Saved(old(store.deliveries), old(store.errors))
      ensures !isLocked && lockMarker == None && !IsAppLocked()
    {
      var merged := store.UpdateSettings(DisablePatch());
      ClearLockState();
      r := true;
    }

    /** `lockApp` at `now`: locks and stores a marker only when the lock is enabled. */
    method LockApp(now: int)
      modifies this`isLocked, this`lockMarker
      ensures Truthy(Get(store.doc.settings, "lockEnabled")) ==>
        isLocked && IsAppLocked() && lockMarker == Some(LockMarker(true, now))
      ensures !Truthy(Get(store.doc.settings, "lockEnabled")) ==> isLocked == old(isLocked) && lockMarker == old(lockMarker)
    {
      if Truthy(Get(store.doc.settings, "lockEnabled")) {
        isLocked := true;
        lockMarker := Some(LockMarker(true, now));
      }
    }

    /** `unlockApp(pin)`: the checks of UnlockError; a correct PIN unlocks and clears the marker. */
    method UnlockApp(pin: string) returns (r: Outcome)
      modifies this`isLocked, this`lockMarker
      ensures match UnlockError(store.doc.settings, pin)
        case Some(e) => r == Fail(e) && isLocked == old(isLocked) && lockMarker == old(lockMarker)
        case None => r == Pass && !isLocked && !IsAppLocked() && lockMarker == None
    {
      var settings := store.doc.settings;
      if !Truthy(Get(settings, "lockEnabled")) || !Truthy(Get(settings, "lockPin")) {
        return Fail(LockNotEnabled);
      }
      if settings["lockPin"].Str? && Checksum.VerifyPassword(pin, settings["lockPin"].s) {
        isLocked := false;
        ClearLockState();
        r := Pass;
      } else {
        r := Fail(WrongPin);
      }
    }

    /** `clearLockState`. */
    method ClearLockState()
      modifies this`isLocked, this`lockMarker
      ensures !isLocked && lockMarker == None
    {
      lockMarker := None;
      isLocked := false;
    }

    /** `isAppLocked`. */
    function IsAppLocked(): (b: bool)
      reads this
      ensures b <==> isLocked
    {
      isLocked
    }

    // ------------------------------------------------------------ profile

    /** `changePassword`: the checks of PasswordChangeCheck, then the user's hash is replaced. */
    method ChangePassword(currentPassword: string, newPassword: string) returns (r: Outcome)
      modifies store`doc, store`deliveries, store`errors
      ensures match PasswordChangeCheck(old(store.doc.users), currentUser, currentPassword, newPassword)
        case Err(e) => r == Fail(e) && unchanged(store)
        case Ok(i) =>
          var users := old(store.doc.users);
          && r == Pass
          && store.doc == old(store.doc).(users := users[i := users[i].(password := Checksum.PasswordHash(newPassword))])
          && store.Saved(old(store.deliveries), old(store.errors))
    {
      if currentUser.None? {
        return Fail(NotLoggedIn);
      }
      var user := store.GetUserById(currentUser.value.id);
      if user.None? {
        return Fail(UserNotFound);
      }
      if !Checksum.VerifyPassword(currentPassword, user.value.password) {
        return Fail(WrongCurrentPassword);
      }
      if |newPassword| < MIN_PASSWORD_LENGTH {
        return Fail(NewPasswordTooShort);
      }
      var data := store.doc;
      var i := UserIndex(data.users, user.value.id);
      if i != -1 {
        var hash := Checksum.HashPassword(newPassword);
        data := data.(users := data.users[i := data.users[i].(password := hash)]);
        store.SaveData(data);
      }
      r := Pass;
    }

    /**
     * `updateProfile(updates)` at `now`: the checks of ProfileCheck, then the
     * given fields are written to the stored user and the session is re-saved.
     */
    method UpdateProfile(updates: ProfileUpdates, now: int) returns (r: Result<SessionUser>)
      modifies this`currentUser, this`session, store`doc, store`deliveries, store`errors
      ensures match ProfileCheck(old(store.doc.users), old(currentUser), updates)
        case Err(e) =>
          && r == Err(e) && currentUser == old(currentUser) && session == old(session)
          && unchanged(store)
        case Ok(i) =>
          var u := ApplyProfile(old(store.doc.users)[i], updates);
          && store.doc == old(store.doc).(users := old(store.doc.users)[i := u])
          && store.Saved(old(store.deliveries), old(store.errors))
          && r == Ok(Snapshot(u)) && currentUser == Some(Snapshot(u)) && session == Some(SessionFor(u, now))
          && IsLoggedIn() && GetCurrentUser().value.id == old(currentUser).value.id
    {
      if currentUser.None? {
        return Err(NotLoggedIn);
      }
      var me := currentUser.value.id;
      var data := store.doc;
      var i := UserIndex(data.users, me);
      if i == -1 {
        return Err(UserNotFound);
      }
      if Given(updates.username) {
        var name := updates.username.value;
        if HeldByOther(data.users, name, me) {
          return Err(UsernameTaken);
        }
        data := data.(users := data.users[i := data.users[i].(username := name)]);
        currentUser := Some(currentUser.value.(username := name));
      }
      if Given(updates.avatar) {
        var avatar := updates.avatar.value;
        data := data.(users := data.users[i := data.users[i].(avatar := avatar)]);
        currentUser := Some(currentUser.value.(avatar := avatar));
      }
      store.SaveData(data);
      SaveSession(data.users[i], now);
      r := Ok(currentUser.value);
    }
  }
}

=== FILE: auth_spec.dfy ===
/**
 * The decisions of the session and lock manager (`AuthManager` in js/auth.js)
 * as functions of the stored document: session validity, the ordered checks
 * of login, registration, password change and profile update, and the PIN
 * check of the lock.
 */
module AuthSpec {
  import opened Records
  import opened Sequences
  import opened StoreSpec
  import Checksum

  /** A session older than this is discarded on load. */
  const SESSION_MAX_AGE_MS: int := 7 * DAY_MS

  /** The credential-free copy of a user that a session holds. */
  datatype SessionUser = SessionUser(id: int, username: string, avatar: string, isAdmin: bool)

  /** A session's `timestamp` as read back: absent or empty, not a date, or a date. */
  datatype Stamp = Missing | Unparsable | At(ms: int)

  /** The stored session record: text that is not JSON, or an object whose fields may be absent. */
  datatype StoredSession = Corrupt | Session(user: Option<SessionUser>, timestamp: Stamp)

  /** The stored lock marker. */
  datatype LockMarker = LockMarker(isLocked: bool, timestamp: int)

  /** The failures the manager reports (their messages in the source are Arabic sentences). */
  datatype AuthError =
    | InvalidGlobalCode
    | UnknownUsername
    | WrongPassword
    | UsernameTaken
    | PasswordTooShort
    | NotLoggedIn
    | UserNotFound
    | WrongCurrentPassword
    | NewPasswordTooShort
    | PinTooShort
    | LockNotEnabled
    | WrongPin

  /** `{success: true, user}` or `{success: false, error}`. */
  datatype Result<+T> = Ok(value: T) | Err(error: AuthError)

  /** `{success: true}` or `{success: false, error}`. */
  datatype Outcome = Pass | Fail(error: AuthError)

  const MIN_PASSWORD_LENGTH: int := 6
  const MIN_PIN_LENGTH: int := 4

  // ---------------------------------------------------------------- sessions

  /** The user fields `saveSession` copies: id, username, avatar and admin flag, no password. */
  function Snapshot(u: User): (su: SessionUser)
    ensures su.id == u.id && su.username == u.username && su.avatar == u.avatar && su.isAdmin == u.isAdmin
  {
    SessionUser(u.id, u.username, u.avatar, u.isAdmin)
  }

  /**
   * The session copy never holds credentials: users that differ only in their
   * password hash and activity times have the same snapshot.
   */
  lemma SnapshotIgnoresCredentials(u: User, password: string, createdAt: int, lastActive: int)
    ensures Snapshot(u.(password := password, createdAt := createdAt, lastActive := lastActive)) == Snapshot(u)
    ensures Snapshot(u).id == u.id && Snapshot(u).isAdmin == u.isAdmin
  {
  }

  /** The record `saveSession(u)` writes at `now`. */
  function SessionFor(u: User, now: int): (s: StoredSession)
    ensures s.Session? && s.user == Some(Snapshot(u)) && s.timestamp == At(now)
  {
    Session(Some(Snapshot(u)), At(now))
  }

  /**
   * `isValidSession` at `now`: a user and a timestamp are present, the age is at
   * most seven days, and the user id still resolves. A timestamp that is not a
   * date makes the age NaN, which passes the age comparison.
   */
  function IsValidSession(users: seq<User>, s: StoredSession, now: int): (b: bool)
    ensures s.Corrupt? ==> !b
    ensures s.Session? && (s.user.None? || s.timestamp.Missing?) ==> !b
    ensures s.Session? && s.timestamp.At? && now - s.timestamp.ms > SESSION_MAX_AGE_MS ==> !b
    ensures b ==> s.Session? && s.user.Some? && UserIndex(users, s.user.value.id) != -1
    ensures s.Session? && s.user.Some? && s.timestamp.Unparsable? ==>
      (b <==> UserIndex(users, s.user.value.id) != -1)
    ensures (&& s.Session? && s.user.Some? && s.timestamp.At? && now - s.timestamp.ms <= SESSION_MAX_AGE_MS
             && UserIndex(users, s.user.value.id) != -1) ==> b
  {
    && s.Session?
    && s.user.Some?
    && s.timestamp != Missing
    && !(s.timestamp.At? && now - s.timestamp.ms > SESSION_MAX_AGE_MS)
    && UserById(users, s.user.value.id).Some?
  }

  /**
   * The session `saveSession` writes for a stored user stays valid up to and
   * including seven days after it was written, and not a millisecond longer.
   */
  lemma SavedSessionLifetime(users: seq<User>, i: nat, saved: int, now: int)
    requires i < |users|
    ensures IsValidSession(users, SessionFor(users[i], saved), now) <==> now - saved <= 604_800_000
  {
    assert UserById(users, users[i].id).Some?;
  }

  /** A session whose user no longer resolves is invalid, however fresh. */
  lemma SessionOfRemovedUser(users: seq<User>, s: StoredSession, now: int)
    requires s.Session? && s.user.Some?
    requires forall j :: 0 <= j < |users| ==> users[j].id != s.user.value.id
    ensures !IsValidSession(users, s, now)
  {
  }

  // ---------------------------------------------------------------- codes

  /**
   * `verifyGlobalCode`: strict equality with the settings' `globalCode`, so a
   * missing or non-string setting accepts no code at all.
   */
  function VerifyGlobalCode(settings: Settings, code: string): (b: bool)
    ensures b <==> "globalCode" in settings && settings["globalCode"] == Str(code)
  {
    Get(settings, "globalCode") == Some(Str(code))
  }

  /** `verifyAdminCode`: strict equality with the settings' `adminCode`. */
  function VerifyAdminCode(settings: Settings, code: string): (b: bool)
    ensures b <==> "adminCode" in settings && settings["adminCode"] == Str(code)
  {
    Get(settings, "adminCode") == Some(Str(code))
  }

  /** Whatever the settings, at most one global code and at most one admin code pass. */
  lemma CodesAreUnique(settings: Settings, a: string, b: string)
    ensures VerifyGlobalCode(settings, a) && VerifyGlobalCode(settings, b) ==> a == b
    ensures VerifyAdminCode(settings, a) && VerifyAdminCode(settings, b) ==> a == b
  {
  }

  /** The seeded settings accept exactly the seeded codes. */
  lemma SeededCodes(code: string)
    ensures VerifyGlobalCode(DefaultSettings(), code) <==> code == "mj36mhajehad"
    ensures VerifyAdminCode(DefaultSettings(), code) <==> code == "Wwsdjehadadmen56780097gg"
  {
  }

  /** Turning the lock on or off leaves both codes as they were. */
  lemma CodesSurviveLockChanges(settings: Settings, pinHash: string, code: string)
    ensures VerifyGlobalCode(MergeSettings(settings, EnablePatch(pinHash)), code) == VerifyGlobalCode(settings, code)
    ensures VerifyAdminCode(MergeSettings(settings, EnablePatch(pinHash)), code) == VerifyAdminCode(settings, code)
    ensures VerifyGlobalCode(MergeSettings(settings, DisablePatch()), code) == VerifyGlobalCode(settings, code)
    ensures VerifyAdminCode(MergeSettings(settings, DisablePatch()), code) == VerifyAdminCode(settings, code)
  {
  }

  // ---------------------------------------------------------------- login and registration

  /**
   * `login`'s checks, in order: global code, then the username, then the
   * password; on success the first user with that username.
   */
  function LoginCheck(d: Document, globalCode: string, username: string, password: string): (r: Result<User>)
    ensures !VerifyGlobalCode(d.settings, globalCode) ==> r == Err(InvalidGlobalCode)
    ensures VerifyGlobalCode(d.settings, globalCode) && UsernameIndex(d.users, username) == -1 ==>
      r == Err(UnknownUsername)
    ensures VerifyGlobalCode(d.settings, globalCode) && UsernameIndex(d.users, username) != -1 ==>
      var u := d.users[UsernameIndex(d.users, username)];
      r == if Checksum.VerifyPassword(password, u.password) then Ok(u) else Err(WrongPassword)
    ensures r.Ok? ==> && r.value in d.users && r.value.username == username
                      && Checksum.Checksum(password) == Checksum.ParseDecimal(r.value.password)
  {
    if !VerifyGlobalCode(d.settings, globalCode) then Err(InvalidGlobalCode)
    else match UserByUsername(d.users, username)
      case None => Err(UnknownUsername)
      case Some(u) => if !Checksum.VerifyPassword(password, u.password) then Err(WrongPassword) else Ok(u)
  }

  /** `register`'s checks, in order: global code, username taken, password shorter than six. */
  function RegisterError(d: Document, globalCode: string, username: string, password: string): (e: Option<AuthError>)
    ensures !VerifyGlobalCode(d.settings, globalCode) ==> e == Some(InvalidGlobalCode)
    ensures VerifyGlobalCode(d.settings, globalCode) && UsernameIndex(d.users, username) != -1 ==>
      e == Some(UsernameTaken)
    ensures VerifyGlobalCode(d.settings, globalCode) && UsernameIndex(d.users, username) == -1 ==>
      e == if |password| < 6 then Some(PasswordTooShort) else None
    ensures e.None? ==> forall j :: 0 <= j < |d.users| ==> d.users[j].username != username
  {
    if !VerifyGlobalCode(d.settings, globalCode) then Some(InvalidGlobalCode)
    else if UserByUsername(d.users, username).Some? then Some(UsernameTaken)
    else if |password| < MIN_PASSWORD_LENGTH then Some(PasswordTooShort)
    else None
  }

  /** `avatar || 'assets/images/avatar-male.png'`. */
  function RegisterAvatar(avatar: Option<string>): (a: string)
    ensures avatar.Some? && avatar.value != "" ==> a == avatar.value
    ensures avatar.None? || avatar.value == "" ==> a == "assets/images/avatar-male.png"
  {
    if avatar.Some? && avatar.value != "" then avatar.value else DEFAULT_AVATAR
  }

  /** The user `register` adds. */
  function RegisteredUser(username: string, password: string, avatar: Option<string>, id: int, now: int): (u: User)
    ensures u.id == id && u.username == username && u.avatar == RegisterAvatar(avatar)
    ensures !u.isAdmin && u.createdAt == now && u.lastActive == now
    ensures Checksum.VerifyPassword(password, u.password)
  {
    NewUser(UserInput(username, password, RegisterAvatar(avatar)), id, now)
  }

  /** After a successful registration the same credentials log in as the new user. */
  lemma RegisterThenLogin(d: Document, globalCode: string, username: string, password: string,
                          avatar: Option<string>, id: int, now: int)
    requires RegisterError(d, globalCode, username, password).None?
    ensures var u := RegisteredUser(username, password, avatar, id, now);
      LoginCheck(d.(users := d.users + [u]), globalCode, username, password) == Ok(u)
  {
    var u := RegisteredUser(username, password, avatar, id, now);
    var users := d.users + [u];
    assert users[|d.users|] == u;
    assert forall j :: 0 <= j < |d.users| ==> users[j] == d.users[j];
    assert UsernameIndex(users, username) == |d.users|;
    Checksum.VerifyPasswordIff(password, password);
  }

  /** No two users share a username. */
  predicate UniqueUsernames(users: seq<User>) {
    forall i, j :: 0 <= i < j < |users| ==> users[i].username != users[j].username
  }

  /** No two users share an id. */
  predicate UniqueIds(users: seq<User>) {
    forall i, j :: 0 <= i < j < |users| ==> users[i].id != users[j].id
  }

  /**
   * A successful registration keeps usernames unique, and a second registration
   * of the same username then fails with UsernameTaken.
   */
  lemma RegisterKeepsUsernamesUnique(d: Document, globalCode: string, username: string, password: string,
                                     avatar: Option<string>, id: int, now: int, password2: string)
    requires UniqueUsernames(d.users)
    requires RegisterError(d, globalCode, username, password).None?
    ensures var d' := d.(users := d.users + [RegisteredUser(username, password, avatar, id, now)]);
      && UniqueUsernames(d'.users)
      && RegisterError(d', globalCode, username, password2) == Some(UsernameTaken)
  {
    var users := d.users + [RegisteredUser(username, password, avatar, id, now)];
    assert users[|d.users|].username == username;
    forall i, j | 0 <= i < j < |users| ensures users[i].username != users[j].username {
      if j < |d.users| {
        assert users[i] == d.users[i] && users[j] == d.users[j];
      } else {
        assert users[i] == d.users[i];
      }
    }
  }

  /** The seeded users log in with the seeded password and the seeded global code. */
  lemma SeededLogin(now: int)
    ensures LoginCheck(DefaultDocument(now), "mj36mhajehad", "جهاد", "123456") == Ok(DefaultDocument(now).users[0])
    ensures LoginCheck(DefaultDocument(now), "mj36mhajehad", "حبيبتي", "123456") == Ok(DefaultDocument(now).users[1])
  {
    var users := DefaultDocument(now).users;
    assert users[0].username == "جهاد";
    assert users[1].username == "حبيبتي" && users[0].username != "حبيبتي";
    assert UsernameIndex(users, "جهاد") == 0;
    assert UsernameIndex(users, "حبيبتي") == 1;
  }

  // ---------------------------------------------------------------- lock

  /** What `enableLock` merges into the settings. */
  function EnablePatch(pinHash: string): (p: Settings)
    ensures p.Keys == {"lockEnabled", "lockPin"}
    ensures Truthy(Get(p, "lockEnabled")) && Get(p, "lockPin") == Some(Str(pinHash))
  {
    map["lockEnabled" := Bool(true), "lockPin" := Str(pinHash)]
  }

  /** What `disableLock` merges into the settings. */
  function DisablePatch(): (p: Settings)
    ensures p.Keys == {"lockEnabled", "lockPin"}
    ensures !Truthy(Get(p, "lockEnabled")) && !Truthy(Get(p, "lockPin"))
  {
    map["lockEnabled" := Bool(false), "lockPin" := Null]
  }

  /** `unlockApp`'s checks: the lock must be enabled with a PIN set, then the PIN must match. */
  function UnlockError(settings: Settings, pin: string): (e: Option<AuthError>)
    ensures !Truthy(Get(settings, "lockEnabled")) || !Truthy(Get(settings, "lockPin")) ==> e == Some(LockNotEnabled)
    ensures Truthy(Get(settings, "lockEnabled")) && Truthy(Get(settings, "lockPin")) ==>
      e == if settings["lockPin"] == Str(Checksum.PasswordHash(pin)) then None else Some(WrongPin)
    ensures e.None? ==> settings["lockPin"].Str? && Checksum.ParseDecimal(settings["lockPin"].s) == Checksum.Checksum(pin)
  {
    if !Truthy(Get(settings, "lockEnabled")) || !Truthy(Get(settings, "lockPin")) then Some(LockNotEnabled)
    else if Get(settings, "lockPin") == Some(Str(Checksum.PasswordHash(pin))) then None
    else Some(WrongPin)
  }

  /**
   * Once `enableLock(pin)` has merged its patch, unlocking accepts exactly the
   * PINs whose checksum equals that of `pin`, `pin` itself among them.
   */
  lemma EnableThenUnlock(settings: Settings, pin: string, attempt: string)
    ensures var s := MergeSettings(settings, EnablePatch(Checksum.PasswordHash(pin)));
      && (UnlockError(s, attempt).None? <==> Checksum.Checksum(attempt) == Checksum.Checksum(pin))
      && (UnlockError(s, attempt).Some? ==> UnlockError(s, attempt) == Some(WrongPin))
  {
    var s := MergeSettings(settings, EnablePatch(Checksum.PasswordHash(pin)));
    assert Get(s, "lockEnabled") == Some(Bool(true));
    assert Get(s, "lockPin") == Some(Str(Checksum.PasswordHash(pin)));
    Checksum.VerifyPasswordIff(attempt, pin);
  }

  /** Once `disableLock` has merged its patch, every unlock attempt reports the lock as not enabled. */
  lemma DisableThenUnlock(settings: Settings, attempt: string)
    ensures UnlockError(MergeSettings(settings, DisablePatch()), attempt) == Some(LockNotEnabled)
  {
    assert Get(MergeSettings(settings, DisablePatch()), "lockEnabled") == Some(Bool(false));
  }

  // ---------------------------------------------------------------- profile

  /** `changePassword`'s checks, in order; on success the index of the user to update. */
  function PasswordChangeCheck(users: seq<User>, current: Option<SessionUser>,
                               currentPassword: string, newPassword: string): (r: Result<int>)
    ensures current.None? ==> r == Err(NotLoggedIn)
    ensures current.Some? && UserIndex(users, current.value.id) == -1 ==> r == Err(UserNotFound)
    ensures current.Some? && UserIndex(users, current.value.id) != -1 ==>
      var i := UserIndex(users, current.value.id);
      r == if !Checksum.VerifyPassword(currentPassword, users[i].password) then Err(WrongCurrentPassword)
           else if |newPassword| < 6 then Err(NewPasswordTooShort)
           else Ok(i)
    ensures r.Ok? ==> 0 <= r.value < |users| && users[r.value].id == current.value.id
  {
    if current.None? then Err(NotLoggedIn)
    else match UserById(users, current.value.id)
      case None => Err(UserNotFound)
      case Some(u) =>
        if !Checksum.VerifyPassword(currentPassword, u.password) then Err(WrongCurrentPassword)
        else if |newPassword| < MIN_PASSWORD_LENGTH then Err(NewPasswordTooShort)
        else Ok(UserIndex(users, current.value.id))
  }

  /**
   * After a password change the stored hash accepts exactly the passwords whose
   * checksum equals the new one's; the old password stops working unless it collides.
   */
  lemma ChangedPasswordVerifies(users: seq<User>, i: nat, newPassword: string, attempt: string)
    requires i < |users|
    ensures var u := users[i].(password := Checksum.PasswordHash(newPassword));
      Checksum.VerifyPassword(attempt, u.password) <==> Checksum.Checksum(attempt) == Checksum.Checksum(newPassword)
  {
    Checksum.VerifyPasswordIff(attempt, newPassword);
  }

  /** The `updates` object of `updateProfile`; an empty string counts as absent. */
  datatype ProfileUpdates = ProfileUpdates(username: Option<string>, avatar: Option<string>)

  /** A present, non-empty update field. */
  predicate Given(field: Option<string>) {
    field.Some? && field.value != ""
  }

  /** Whether a user other than `id` holds `name`. */
  function HeldByOther(users: seq<User>, name: string, id: int): (b: bool)
    ensures b <==> exists j :: 0 <= j < |users| && users[j].username == name && users[j].id != id
  {
    FindIndex(users, (u: User) => u.username == name && u.id != id) != -1
  }

  /** `updateProfile`'s checks, in order; on success the index of the user to update. */
  function ProfileCheck(users: seq<User>, current: Option<SessionUser>, updates: ProfileUpdates): (r: Result<int>)
    ensures current.None? ==> r == Err(NotLoggedIn)
    ensures current.Some? && UserIndex(users, current.value.id) == -1 ==> r == Err(UserNotFound)
    ensures current.Some? && UserIndex(users, current.value.id) != -1 ==>
      r == if Given(updates.username) && HeldByOther(users, updates.username.value, current.value.id)
           then Err(UsernameTaken) else Ok(UserIndex(users, current.value.id))
    ensures r.Ok? ==> 0 <= r.value < |users| && users[r.value].id == current.value.id
    ensures r.Ok? && Given(updates.username) ==>
      forall j :: 0 <= j < |users| && users[j].username == updates.username.value ==> users[j].id == current.value.id
  {
    if current.None? then Err(NotLoggedIn)
    else
      var i := UserIndex(users, current.value.id);
      if i == -1 then Err(UserNotFound)
      else if Given(updates.username) && HeldByOther(users, updates.username.value, current.value.id) then Err(UsernameTaken)
      else Ok(i)
  }

  /** The user after `updateProfile`: only the given username and avatar change. */
  function ApplyProfile(u: User, updates: ProfileUpdates): (v: User)
    ensures v == u.(username := v.username, avatar := v.avatar)
    ensures v.username == if Given(updates.username) then updates.username.value else u.username
    ensures v.avatar == if Given(updates.avatar) then updates.avatar.value else u.avatar
  {
    var v := if Given(updates.username) then u.(username := updates.username.value) else u;
    if Given(updates.avatar) then v.(avatar := updates.avatar.value) else v
  }

  /**
   * A successful profile update keeps usernames unique, provided user ids are
   * unique: the clash check only looks at users with a different id.
   */
  lemma ProfileKeepsUsernamesUnique(users: seq<User>, current: Option<SessionUser>, updates: ProfileUpdates)
    requires UniqueUsernames(users) && UniqueIds(users)
    requires ProfileCheck(users, current, updates).Ok?
    ensures var i := ProfileCheck(users, current, updates).value;
      UniqueUsernames(users[i := ApplyProfile(users[i], updates)])
  {
    var i := ProfileCheck(users, current, updates).value;
    var users' := users[i := ApplyProfile(users[i], updates)];
    forall a, b | 0 <= a < b < |users'| ensures users'[a].username != users'[b].username {
      if Given(updates.username) && (a == i || b == i) {
        var other := if a == i then b else a;
        assert users[other].id != users[i].id;
        assert users'[other] == users[other];
      }
    }
  }
}

=== FILE: checksum.dfy ===
/**
 * The display-only password checksum of the store: a left fold over the
 * characters of the password with JavaScript's 32-bit signed wrap-around,
 * rendered as a decimal string. The same checksum hashes lock PINs.
 */
module Checksum {

  const TWO_31: int := 0x8000_0000
  const TWO_32: int := 0x1_0000_0000

  /** JavaScript's ToInt32: `x` modulo 2^32, read back as a signed 32-bit value. */
  function ToInt32(x: int): (r: int)
    ensures -TWO_31 <= r < TWO_31
    ensures (x - r) % TWO_32 == 0
  {
    var m := x % TWO_32;
    if m < TWO_31 then m else m - TWO_32
  }

  /** ToInt32 only depends on its argument modulo 2^32. */
  lemma ToInt32Congruent(a: int, b: int, k: int)
    requires a - b == k * TWO_32
    ensures ToInt32(a) == ToInt32(b)
  {
    var ra, rb := ToInt32(a), ToInt32(b);
    var qa, qb := (a - ra) / TWO_32, (b - rb) / TWO_32;
    assert a - ra == qa * TWO_32;
    assert b - rb == qb * TWO_32;
    var m := k + qb - qa;
    assert ra - rb == m * TWO_32;
    assert m == 0;
  }

  /**
   * `hash << 5`: both the operand and the result of a shift are 32-bit, so the
   * shift is multiplication by 32 modulo 2^32.
   */
  function ShiftLeft5(h: int): (r: int)
    ensures r == ToInt32(32 * h)
  {
    var t := ToInt32(h);
    assert h - t == ((h - t) / TWO_32) * TWO_32;
    ToInt32Congruent(t * 32, 32 * h, -32 * ((h - t) / TWO_32));
    ToInt32(t * 32)
  }

  /**
   * One iteration of the loop: `hash = ((hash << 5) - hash) + char; hash = hash & hash`.
   * The shift-and-subtract step is multiplication by 31 modulo 2^32.
   */
  function Step(h: int, c: char): (r: int)
    ensures r == ToInt32(31 * h + c as int)
  {
    var s := ShiftLeft5(h);
    assert 32 * h - s == ((32 * h - s) / TWO_32) * TWO_32;
    ToInt32Congruent(s - h + c as int, 31 * h + c as int, -((32 * h - s) / TWO_32));
    ToInt32(s - h + c as int)
  }

  /** The checksum of a password: the loop's final `hash`, folded from 0 left to right. */
  function Checksum(s: string): (h: int)
    ensures -TWO_31 <= h < TWO_31
  {
    if s == [] then 0 else Step(Checksum(s[..|s| - 1]), s[|s| - 1])
  }

  /** Appending a character multiplies the checksum by 31 and adds the character code, modulo 2^32. */
  lemma ChecksumAppend(s: string, c: char)
    ensures Checksum(s + [c]) == ToInt32(31 * Checksum(s) + c as int)
  {
    assert (s + [c])[..|s|] == s;
    assert Checksum(s + [c]) == Step(Checksum(s), c);
  }

  /** The character of a decimal digit. */
  function DigitChar(d: nat): (c: char)
    requires d < 10
    ensures '0' <= c <= '9' && c as int - '0' as int == d
  {
    ('0' as int + d) as char
  }

  /** The decimal digits of `n`, most significant first, without leading zeros. */
  function Digits(n: nat): (s: string)
    ensures |s| >= 1
    ensures forall i :: 0 <= i < |s| ==> '0' <= s[i] <= '9'
    ensures s[0] == '0' ==> n == 0
  {
    if n < 10 then [DigitChar(n)] else Digits(n / 10) + [DigitChar(n % 10)]
  }

  /**
   * `Number.prototype.toString()` for an integer: a leading '-' when negative,
   * and no leading zero unless the number is zero.
   */
  function Decimal(n: int): (s: string)
    ensures |s| >= 1
    ensures (s[0] == '-') <==> n < 0
    ensures s[0] == '0' ==> n == 0
    ensures n < 0 ==> |s| >= 2 && s[1] != '0'
  {
    if n < 0 then "-" + Digits(-n) else Digits(n)
  }

  /** The value of a string of decimal digits. */
  function DigitsValue(s: string): int {
    if s == [] then 0 else DigitsValue(s[..|s| - 1]) * 10 + (s[|s| - 1] as int - '0' as int)
  }

  /** Reads back what Decimal writes. */
  function ParseDecimal(s: string): int {
    if |s| > 0 && s[0] == '-' then -DigitsValue(s[1..]) else DigitsValue(s)
  }

  lemma {:induction false} DigitsRoundTrip(n: nat)
    ensures DigitsValue(Digits(n)) == n
  {
    if n >= 10 {
      DigitsRoundTrip(n / 10);
      var s := Digits(n / 10) + [DigitChar(n % 10)];
      assert s[..|s| - 1] == Digits(n / 10);
    }
  }

  /** Rendering and reading back a decimal is the identity. */
  lemma DecimalRoundTrip(n: int)
    ensures ParseDecimal(Decimal(n)) == n
  {
    if n < 0 {
      DigitsRoundTrip(-n);
      assert Decimal(n)[1..] == Digits(-n);
    } else {
      DigitsRoundTrip(n);
    }
  }

  /** The stored password hash: `hashPassword(password)`. */
  function PasswordHash(password: string): (h: string)
    ensures ParseDecimal(h) == Checksum(password)
    ensures |h| >= 1 && ((h[0] == '-') <==> Checksum(password) < 0)
    ensures h[0] == '0' ==> Checksum(password) == 0
  {
    DecimalRoundTrip(Checksum(password));
    Decimal(Checksum(password))
  }

  /**
   * `verifyPassword(password, hash)`: the password's hash equals the stored
   * string, so a stored hash that passes reads back as the password's checksum.
   */
  function VerifyPassword(password: string, hash: string): (b: bool)
    ensures b ==> ParseDecimal(hash) == Checksum(password)
  {
    PasswordHash(password) == hash
  }

  /**
   * A password verifies against the hash of another exactly when the two
   * checksums coincide; in particular every password verifies against its own hash.
   */
  lemma VerifyPasswordIff(password: string, other: string)
    ensures VerifyPassword(password, PasswordHash(other)) <==> Checksum(password) == Checksum(other)
  {
    if VerifyPassword(password, PasswordHash(other)) {
      DecimalRoundTrip(Checksum(password));
      DecimalRoundTrip(Checksum(other));
    }
  }

  /** ToInt32 leaves a value that already fits in 31 bits alone. */
  lemma ToInt32Small(x: int)
    requires 0 <= x < TWO_31
    ensures ToInt32(x) == x
  {
  }

  /** A two-character password's checksum does not wrap: it is `31 * a + b`. */
  lemma ChecksumPair(a: char, b: char)
    ensures Checksum([a, b]) == 31 * (a as int) + b as int
  {
    ChecksumAppend([], a);
    assert [] + [a] == [a];
    ToInt32Small(a as int);
    ChecksumAppend([a], b);
    assert [a] + [b] == [a, b];
    ToInt32Small(31 * (a as int) + b as int);
  }

  /** The checksum is weak: "Aa" and "BB" hash alike, so each verifies against the other's hash. */
  lemma WeakChecksumCollision()
    ensures "Aa" != "BB" && VerifyPassword("Aa", PasswordHash("BB"))
  {
    ChecksumPair('A', 'a');
    ChecksumPair('B', 'B');
    assert "Aa" == ['A', 'a'] && "BB" == ['B', 'B'];
    assert Checksum("Aa") == 2112 == Checksum("BB");
  }

  /** `hashPassword`: the loop of the source, computing PasswordHash. */
  method HashPassword(password: string) returns (hash: string)
    ensures hash == PasswordHash(password)
  {
    var h := 0;
    var i := 0;
    while i < |password|
      invariant 0 <= i <= |password|
      invariant h == Checksum(password[..i])
    {
      var code := password[i] as int;
      h := ToInt32(ToInt32(h) * 32) - h + code;
      h := ToInt32(h);
      assert password[..i + 1][..i] == password[..i];
      i := i + 1;
    }
    assert password[..i] == password;
    hash := Decimal(h);
  }
}

=== FILE: data_manager.dfy ===
/**
 * The document store (`DataManager` in js/data.js). The persisted document is
 * the field `doc`; every mutation reads it, changes the copy and saves the
 * whole copy back, which notifies every registered watcher. Watchers are
 * opaque ids: `deliveries` records each call, `errors` each caught exception.
 */
module Store {
  import opened Records
  import opened Sequences
  import opened StoreSpec
  import Checksum

  /** The calls `notifyWatchers(event)` makes: every watcher of `ws` once, in order. */
  function Deliveries(ws: seq<WatcherId>, ev: Event): (r: seq<Delivery>)
    ensures |r| == |ws|
    ensures forall i :: 0 <= i < |ws| ==> r[i] == Delivery(ws[i], ev)
  {
    if ws == [] then [] else [Delivery(ws[0], ev)] + Deliveries(ws[1..], ev)
  }

  lemma DeliveriesAppend(ws: seq<WatcherId>, w: WatcherId, ev: Event)
    ensures Deliveries(ws + [w], ev) == Deliveries(ws, ev) + [Delivery(w, ev)]
  {
  }

  /** The watchers of `ws` whose callback throws, in order: one logged error each. */
  function Failing(ws: seq<WatcherId>, faulty: set<WatcherId>): (r: seq<WatcherId>)
    ensures forall i :: 0 <= i < |r| ==> r[i] in ws && r[i] in faulty
    ensures forall i :: 0 <= i < |ws| && ws[i] in faulty ==> ws[i] in r
  {
    Filter(ws, (w: WatcherId) => w in faulty)
  }

  lemma FailingAppend(ws: seq<WatcherId>, w: WatcherId, faulty: set<WatcherId>)
    ensures Failing(ws + [w], faulty) == Failing(ws, faulty) + (if w in faulty then [w] else [])
  {
    FilterConcat(ws, [w], (x: WatcherId) => x in faulty);
  }

  /** Exactly the throwing watchers are logged, each as often as it is registered. */
  lemma FailingCounts(ws: seq<WatcherId>, faulty: set<WatcherId>)
    ensures forall w :: multiset(Failing(ws, faulty))[w] == if w in faulty then multiset(ws)[w] else 0
  {
    FilterCounts(ws, (w: WatcherId) => w in faulty);
  }

  /** What one more iteration of the notification loop adds. */
  lemma NotifyStep(ws: seq<WatcherId>, i: nat, ev: Event, faulty: set<WatcherId>)
    requires i < |ws|
    ensures Deliveries(ws[..i + 1], ev) == Deliveries(ws[..i], ev) + [Delivery(ws[i], ev)]
    ensures Failing(ws[..i + 1], faulty) == Failing(ws[..i], faulty) + (if ws[i] in faulty then [ws[i]] else [])
  {
    assert ws[..i + 1] == ws[..i] + [ws[i]];
    DeliveriesAppend(ws[..i], ws[i], ev);
    FailingAppend(ws[..i], ws[i], faulty);
  }

  class DataManager {
    /** The seed written whenever storage is empty; its timestamps are those of construction. */
    const defaultData: Document
    /** The callbacks among the watchers that throw when called. */
    const faulty: set<WatcherId>

    /** The document persisted under the storage key. */
    var doc: Document
    /** The registered callbacks, in registration order. */
    var watchers: seq<WatcherId>
    /** Every watcher call made so far. */
    var deliveries: seq<Delivery>
    /** Every watcher exception caught and logged so far. */
    var errors: seq<WatcherId>

    /** The whole document was saved: every watcher was told `dataChanged` with it. */
    ghost predicate Saved(deliveries0: seq<Delivery>, errors0: seq<WatcherId>)
      reads this
    {
      && deliveries == deliveries0 + Deliveries(watchers, DataChanged(doc))
      && errors == errors0 + Failing(watchers, faulty)
    }

    /**
     * The state `updateUserActivity(userId)` leaves behind, starting from `doc0`:
     * the first user with that id has `lastActive == now` and the document was
     * saved, or nothing at all changed when no user has that id.
     */
    ghost predicate ActivityRecorded(doc0: Document, deliveries0: seq<Delivery>, errors0: seq<WatcherId>,
                                     userId: int, now: int)
      reads this
    {
      var i := UserIndex(doc0.users, userId);
      if i == -1 then
        doc == doc0 && deliveries == deliveries0 && errors == errors0
      else
        && doc == doc0.(users := doc0.users[i := doc0.users[i].(lastActive := now)])
        && Saved(deliveries0, errors0)
    }

    /** The store over what storage holds (`stored`), or over the seed when it holds nothing. */
    constructor (stored: Option<Document>, now: int, faulty: set<WatcherId>)
      ensures this.faulty == faulty && defaultData == DefaultDocument(now)
      ensures doc == (if stored.Some? then stored.value else DefaultDocument(now))
      ensures watchers == [] && deliveries == [] && errors == []
    {
      this.faulty := faulty;
      defaultData := DefaultDocument(now);
      // initializeData saves the seed when storage is empty; no watcher is registered yet
      doc := if stored.Some? then stored.value else DefaultDocument(now);
      watchers := [];
      deliveries := [];
      errors := [];
    }

    // ------------------------------------------------------------ persistence and watchers

    /** `notifyWatchers`: calls every watcher in order; an exception is logged and the rest still run. */
    method NotifyWatchers(ev: Event)
      modifies this`deliveries, this`errors
      ensures deliveries == old(deliveries) + Deliveries(watchers, ev)
      ensures errors == old(errors) + Failing(watchers, faulty)
    {
      var ws, bad := watchers, faulty;
      ghost var delivered0, errors0 := deliveries, errors;
      var i := 0;
      while i < |ws|
        invariant 0 <= i <= |ws|
        invariant deliveries == delivered0 + Deliveries(ws[..i], ev)
        invariant errors == errors0 + Failing(ws[..i], bad)
      {
        var w := ws[i];
        NotifyStep(ws, i, ev, bad);
        assert (delivered0 + Deliveries(ws[..i], ev)) + [Delivery(w, ev)]
            == delivered0 + (Deliveries(ws[..i], ev) + [Delivery(w, ev)]);
        deliveries := deliveries + [Delivery(w, ev)];
        if w in bad {
          assert (errors0 + Failing(ws[..i], bad)) + [w] == errors0 + (Failing(ws[..i], bad) + [w]);
          errors := errors + [w];
        }
        i := i + 1;
      }
      assert ws[..i] == ws;
    }

    /** `saveData`: persists the whole document, then notifies `dataChanged`. */
    method SaveData(data: Document)
      modifies this`doc, this`deliveries, this`errors
      ensures doc == data && Saved(old(deliveries), old(errors))
    {
      doc := data;
      NotifyWatchers(DataChanged(data));
    }

    /** `addWatcher`: registers a callback at the end of the list. */
    method AddWatcher(w: WatcherId)
      modifies this`watchers
      ensures watchers == old(watchers) + [w]
    {
      watchers := watchers + [w];
    }

    /** `removeWatcher`: drops every registration of the callback, keeping the others in order. */
    method RemoveWatcher(w: WatcherId)
      modifies this`watchers
      ensures watchers == Filter(old(watchers), (x: WatcherId) => x != w)
      ensures w !in watchers
      ensures forall i :: 0 <= i < |old(watchers)| && old(watchers)[i] != w ==> old(watchers)[i] in watchers
    {
      watchers := Filter(watchers, (x: WatcherId) => x != w);
    }

    // ------------------------------------------------------------ users

    function GetUsers(): seq<User>
      reads this
    {
      doc.users
    }

    function GetUserById(id: int): (r: Option<User>)
      reads this
      ensures r.Some? ==> r.value in doc.users && r.value.id == id
      ensures r.None? ==> forall j :: 0 <= j < |doc.users| ==> doc.users[j].id != id
      ensures r.Some? ==> r.value == doc.users[UserIndex(doc.users, id)]
    {
      UserById(doc.users, id)
    }

    function GetUserByUsername(name: string): (r: Option<User>)
      reads this
      ensures r.Some? ==> r.value in doc.users && r.value.username == name
      ensures r.None? ==> forall j :: 0 <= j < |doc.users| ==> doc.users[j].username != name
      ensures r.Some? ==> r.value == doc.users[UsernameIndex(doc.users, name)]
    {
      UserByUsername(doc.users, name)
    }

    /** `addUser`: appends a non-admin user holding the hash of the given password. */
    method AddUser(input: UserInput, id: int, now: int) returns (user: User)
      modifies this`doc, this`deliveries, this`errors
      ensures user == NewUser(input, id, now)
      ensures doc == old(doc).(users := old(doc).users + [user])
      ensures Saved(old(deliveries), old(errors))
    {
      var data := doc;
      var hash := Checksum.HashPassword(input.password);
      user := User(id, input.username, hash, input.avatar, false, now, now);
      data := data.(users := data.users + [user]);
      SaveData(data);
    }

    /** `updateUserActivity(userId)`: stamps the first user with that id; nothing at all when none has it. */
    method UpdateUserActivity(userId: int, now: int)
      modifies this`doc, this`deliveries, this`errors
      ensures ActivityRecorded(old(doc), old(deliveries), old(errors), userId, now)
    {
      var data := doc;
      var i := UserIndex(data.users, userId);
      if i != -1 {
        var user := data.users[i].(lastActive := now);
        data := data.(users := data.users[i := user]);
        SaveData(data);
      }
    }

    // ------------------------------------------------------------ posts

    /** `getPosts`: the posts, newest first; storage keeps its own order. */
    function GetPosts(): (r: seq<Post>)
      reads this
      ensures SortedDesc(r, PostTime) && multiset(r) == multiset(doc.posts)
    {
      SortDesc(doc.posts, PostTime)
    }

    /** `addPost`: appends a post with no likes. */
    method AddPost(input: PostInput, id: int, now: int) returns (post: Post)
      modifies this`doc, this`deliveries, this`errors
      ensures post == NewPost(input, id, now)
      ensures doc == old(doc).(posts := old(doc).posts + [post])
      ensures Saved(old(deliveries), old(errors))
      ensures AllLikesConsistent(old(doc).posts) ==> AllLikesConsistent(doc.posts)
    {
      var data := doc;
      post := Post(id, input.userId, input.content, input.image, now, 0, []);
      data := data.(posts := data.posts + [post]);
      SaveData(data);
      if AllLikesConsistent(old(doc).posts) {
        AddPostKeepsConsistent(old(doc).posts, input, id, now);
      }
    }

    /**
     * `togglePostLike`: toggles the user's like on the first post with that id
     * and returns the post; an unknown id changes and saves nothing.
     */
    method TogglePostLike(postId: int, userId: int) returns (post: Option<Post>)
      modifies this`doc, this`deliveries, this`errors
      ensures var i := PostIndex(old(doc).posts, postId);
        if i == -1 then
          post == None && doc == old(doc) && deliveries == old(deliveries) && errors == old(errors)
        else
          && post == Some(ToggleLike(old(doc).posts[i], userId))
          && doc == old(doc).(posts := old(doc).posts[i := post.value])
          && Saved(old(deliveries), old(errors))
      ensures AllLikesConsistent(old(doc).posts) ==> AllLikesConsistent(doc.posts)
    {
      var data := doc;
      var i := PostIndex(data.posts, postId);
      if i == -1 {
        return None;
      }
      var p := ToggleLike(data.posts[i], userId);
      data := data.(posts := data.posts[i := p]);
      SaveData(data);
      post := Some(p);
      if AllLikesConsistent(old(doc).posts) {
        ToggleKeepsAllConsistent(old(doc).posts, i, userId);
      }
    }

    /** `deletePost`: keeps the posts with another id, in order, and saves even when none matched. */
    method DeletePost(postId: int)
      modifies this`doc, this`deliveries, this`errors
      ensures doc == old(doc).(posts := WithoutPost(old(doc).posts, postId))
      ensures Saved(old(deliveries), old(errors))
      ensures AllLikesConsistent(old(doc).posts) ==> AllLikesConsistent(doc.posts)
    {
      var data := doc;
      data := data.(posts := Filter(data.posts, (p: Post) => p.id != postId));
      SaveData(data);
      if AllLikesConsistent(old(doc).posts) {
        WithoutPostKeepsConsistent(old(doc).posts, postId);
      }
    }

    // ------------------------------------------------------------ messages, stories, novels

    /** `getMessages`: the messages, oldest first. */
    function GetMessages(): (r: seq<Message>)
      reads this
      ensures forall i, j :: 0 <= i < j < |r| ==> r[i].timestamp <= r[j].timestamp
      ensures multiset(r) == multiset(doc.messages)
    {
      var r := SortDesc(doc.messages, MessageAge);
      assert forall i, j :: 0 <= i < j < |r| ==> MessageAge(r[i]) >= MessageAge(r[j]);
      r
    }

    method AddMessage(input: MessageInput, id: int, now: int) returns (message: Message)
      modifies this`doc, this`deliveries, this`errors
      ensures message == NewMessage(input, id, now)
      ensures doc == old(doc).(messages := old(doc).messages + [message])
      ensures Saved(old(deliveries), old(errors))
    {
      var data := doc;
      message := Message(id, input.senderId, input.receiverId, input.content, now, input.kind);
      data := data.(messages := data.messages + [message]);
      SaveData(data);
    }

    /** `getActiveStories`: the stored stories still unexpired at `now`, in stored order. */
    function GetActiveStories(now: int): (r: seq<Story>)
      reads this
      ensures forall i :: 0 <= i < |r| ==> r[i] in doc.stories && r[i].expiresAt > now
      ensures forall i :: 0 <= i < |doc.stories| && doc.stories[i].expiresAt > now ==> doc.stories[i] in r
      ensures forall st :: multiset(r)[st] == if st.expiresAt > now then multiset(doc.stories)[st] else 0
      ensures r == ActiveStories(doc.stories, now)
    {
      ActiveStoriesCounts(doc.stories, now);
      ActiveStories(doc.stories, now)
    }

    /** `addStory`: appends a story that expires 24 hours after `now`. */
    method AddStory(input: StoryInput, id: int, now: int) returns (story: Story)
      modifies this`doc, this`deliveries, this`errors
      ensures story == NewStory(input, id, now)
      ensures doc == old(doc).(stories := old(doc).stories + [story])
      ensures Saved(old(deliveries), old(errors))
    {
      var data := doc;
      story := Story(id, input.userId, input.content, input.media, now, now + 24 * 60 * 60 * 1000);
      data := data.(stories := data.stories + [story]);
      SaveData(data);
    }

    /** `getNovels`: the novels, newest first. */
    function GetNovels(): (r: seq<Novel>)
      reads this
      ensures SortedDesc(r, NovelTime) && multiset(r) == multiset(doc.novels)
    {
      SortDesc(doc.novels, NovelTime)
    }

    method AddNovel(input: NovelInput, id: int, now: int) returns (novel: Novel)
      modifies this`doc, this`deliveries, this`errors
      ensures novel == NewNovel(input, id, now)
      ensures doc == old(doc).(novels := old(doc).novels + [novel])
      ensures Saved(old(deliveries), old(errors))
    {
      var data := doc;
      novel := Novel(id, input.title, input.content, input.authorId, now);
      data := data.(novels := data.novels + [novel]);
      SaveData(data);
    }

    // ------------------------------------------------------------ settings

    function GetSettings(): Settings
      reads this
    {
      doc.settings
    }

    /** `updateSettings`: merges the patch over the settings, saves, and returns the merged settings. */
    method UpdateSettings(patch: Settings) returns (settings: Settings)
      modifies this`doc, this`deliveries, this`errors
      ensures settings == MergeSettings(old(doc).settings, patch)
      ensures doc == old(doc).(settings := settings)
      ensures Saved(old(deliveries), old(errors))
    {
      var data := doc;
      data := data.(settings := data.settings + patch);
      SaveData(data);
      settings := data.settings;
    }

    /**
     * `updateFeatureStatus`: sets one feature flag, saves (`dataChanged`), then
     * notifies `featureChanged`. When `features` is not an object the
     * assignment throws: `ok` is false and nothing changes.
     */
    method UpdateFeatureStatus(feature: string, status: bool) returns (ok: bool)
      modifies this`doc, this`deliveries, this`errors
      ensures var s := SetFeature(old(doc).settings, feature, status);
        && ok == s.Some?
        && (s.None? ==> doc == old(doc) && deliveries == old(deliveries) && errors == old(errors))
        && (s.Some? ==>
          && doc == old(doc).(settings := s.value)
          && deliveries == old(deliveries) + Deliveries(watchers, DataChanged(doc))
                                           + Deliveries(watchers, FeatureChanged(feature, status))
          && errors == old(errors) + Failing(watchers, faulty) + Failing(watchers, faulty))
    {
      var data := doc;
      if "features" in data.settings && data.settings["features"].Flags? {
        var flags := data.settings["features"].flags[feature := status];
        data := data.(settings := data.settings["features" := Flags(flags)]);
        SaveData(data);
        NotifyWatchers(FeatureChanged(feature, status));
        ok := true;
      } else {
        ok := false;
      }
    }

    // ------------------------------------------------------------ screenshots and maintenance

    /** `getScreenshots`: the screenshot logs, newest first. */
    function GetScreenshots(): (r: seq<Screenshot>)
      reads this
      ensures SortedDesc(r, ScreenshotTime) && multiset(r) == multiset(doc.screenshots)
    {
      SortDesc(doc.screenshots, ScreenshotTime)
    }

    method AddScreenshot(userId: int, page: string, id: int, now: int) returns (shot: Screenshot)
      modifies this`doc, this`deliveries, this`errors
      ensures shot == NewScreenshot(userId, page, id, now)
      ensures doc == old(doc).(screenshots := old(doc).screenshots + [shot])
      ensures Saved(old(deliveries), old(errors))
    {
      var data := doc;
      shot := Screenshot(id, userId, page, now);
      data := data.(screenshots := data.screenshots + [shot]);
      SaveData(data);
    }

    /** `cleanup`: drops expired stories and screenshot logs older than thirty days, and saves. */
    method Cleanup(now: int)
      modifies this`doc, this`deliveries, this`errors
      ensures doc == CleanedUp(old(doc), now)
      ensures Saved(old(deliveries), old(errors))
    {
      var data := doc;
      data := data.(stories := Filter(data.stories, (st: Story) => st.expiresAt > now));
      var thirtyDaysAgo := now - 30 * 24 * 60 * 60 * 1000;
      data := data.(screenshots := Filter(data.screenshots, (s: Screenshot) => s.timestamp > thirtyDaysAgo));
      SaveData(data);
    }

    /**
     * `resetData`: storage is emptied and re-seeded with the seed built at
     * construction; watchers hear `dataChanged` and then `dataReset`.
     */
    method ResetData()
      modifies this`doc, this`deliveries, this`errors
      ensures doc == defaultData
      ensures deliveries == old(deliveries) + Deliveries(watchers, DataChanged(defaultData))
                                           + Deliveries(watchers, DataReset(defaultData))
      ensures errors == old(errors) + Failing(watchers, faulty) + Failing(watchers, faulty)
    {
      SaveData(defaultData);
      NotifyWatchers(DataReset(doc));
    }

    /**
     * `importData`: `parsed` is the outcome of parsing the text. A parsed
     * document replaces the stored one wholesale; a parse failure changes nothing.
     */
    method ImportData(parsed: Option<Document>) returns (ok: bool)
      modifies this`doc, this`deliveries, this`errors
      ensures ok == parsed.Some?
      ensures parsed.Some? ==> doc == parsed.value && Saved(old(deliveries), old(errors))
      ensures parsed.None? ==> doc == old(doc) && deliveries == old(deliveries) && errors == old(errors)
    {
      if parsed.Some? {
        SaveData(parsed.value);
        ok := true;
      } else {
        ok := false;
      }
    }
  }
}

=== FILE: records.dfy ===
/**
 * The persisted document of the app and its records. ISO timestamps are
 * modelled as integer milliseconds since the epoch; ids are integers.
 */
module Records {
  import Checksum

  datatype Option<+T> = None | Some(value: T)

  const HOUR_MS: int := 60 * 60 * 1000
  const DAY_MS: int := 24 * HOUR_MS

  /** The avatar `register` stores when none is given. */
  const DEFAULT_AVATAR: string := "assets/images/avatar-male.png"

  datatype User = User(
    id: int,
    username: string,
    password: string,  // the PasswordHash of the password, never the password itself
    avatar: string,
    isAdmin: bool,
    createdAt: int,
    lastActive: int)

  datatype Post = Post(
    id: int,
    userId: int,
    content: string,
    image: Option<string>,
    timestamp: int,
    likes: int,
    likedBy: seq<int>)

  datatype Message = Message(
    id: int,
    senderId: int,
    receiverId: int,
    content: string,
    timestamp: int,
    kind: string)  // the record's `type` field

  datatype Story = Story(
    id: int,
    userId: int,
    content: string,
    media: string,
    timestamp: int,
    expiresAt: int)

  datatype Novel = Novel(
    id: int,
    title: string,
    content: string,
    authorId: int,
    timestamp: int)

  datatype Screenshot = Screenshot(
    id: int,
    userId: int,
    page: string,
    timestamp: int)

  /** A settings value as it sits in the JSON document. */
  datatype Value = Null | Bool(b: bool) | Str(s: string) | Flags(flags: map<string, bool>)

  /** The settings object: any keys, merged key by key by `updateSettings`. */
  type Settings = map<string, Value>

  datatype Document = Document(
    users: seq<User>,
    posts: seq<Post>,
    messages: seq<Message>,
    stories: seq<Story>,
    novels: seq<Novel>,
    settings: Settings,
    screenshots: seq<Screenshot>)

  /** The fields a caller passes to the `add*` operations (spread into the new record). */
  datatype UserInput = UserInput(username: string, password: string, avatar: string)
  datatype PostInput = PostInput(userId: int, content: string, image: Option<string>)
  datatype MessageInput = MessageInput(senderId: int, receiverId: int, content: string, kind: string)
  datatype StoryInput = StoryInput(userId: int, content: string, media: string)
  datatype NovelInput = NovelInput(title: string, content: string, authorId: int)

  /** A registered change callback; the callback itself is code outside the model. */
  type WatcherId = nat

  /** What a watcher is called with: the event name and its payload. */
  datatype Event =
    | DataChanged(data: Document)
    | FeatureChanged(feature: string, status: bool)
    | DataReset(data: Document)

  /** One call of one watcher. */
  datatype Delivery = Delivery(watcher: WatcherId, event: Event)

  /** JavaScript truthiness of a settings entry; a missing key reads as `undefined`. */
  function Truthy(v: Option<Value>): (b: bool)
    ensures b <==> v.Some? && v.value != Null && v.value != Bool(false) && v.value != Str("")
  {
    match v
    case None => false
    case Some(Null) => false
    case Some(Bool(b)) => b
    case Some(Str(s)) => s != ""
    case Some(Flags(_)) => true
  }

  /** `settings[key]`, or None for `undefined`. */
  function Get(settings: Settings, key: string): (v: Option<Value>)
    ensures v.Some? <==> key in settings
    ensures v.Some? ==> v.value == settings[key]
  {
    if key in settings then Some(settings[key]) else None
  }

  const GLOBAL_CODE: string := "mj36mhajehad"
  const ADMIN_CODE: string := "Wwsdjehadadmen56780097gg"

  /** The seeded settings: the two codes, every feature on, the lock off and no PIN. */
  function DefaultSettings(): (s: Settings)
    ensures "globalCode" in s && s["globalCode"] == Str(GLOBAL_CODE)
    ensures "adminCode" in s && s["adminCode"] == Str(ADMIN_CODE)
    ensures "features" in s && s["features"].Flags?
    ensures forall f :: f in s["features"].flags ==> s["features"].flags[f]
    ensures !Truthy(Get(s, "lockEnabled")) && !Truthy(Get(s, "lockPin"))
  {
    map[
      "globalCode" := Str(GLOBAL_CODE),
      "adminCode" := Str(ADMIN_CODE),
      "features" := Flags(map["posts" := true, "messages" := true, "stories" := true, "watch" := true, "novels" := true]),
      "theme" := Str("light"),
      "language" := Str("ar"),
      "lockEnabled" := Bool(false),
      "lockPin" := Null
    ]
  }

  /** The seeded document, its timestamps taken relative to `now` (construction time). */
  function DefaultDocument(now: int): (d: Document)
    ensures |d.users| == 2 && forall i :: 0 <= i < |d.users| ==> !d.users[i].isAdmin
    ensures forall i :: 0 <= i < |d.posts| ==> d.posts[i].likes == |d.posts[i].likedBy|
    ensures forall i :: 0 <= i < |d.stories| ==> d.stories[i].expiresAt > now
    ensures !Truthy(Get(d.settings, "lockEnabled"))
  {
    Document(SeedUsers(now), SeedPosts(now), SeedMessages(now), SeedStories(now), SeedNovels(now),
             DefaultSettings(), SeedScreenshots(now))
  }

  /** The two seeded users: neither is an admin, both active at the moment of seeding. */
  function SeedUsers(now: int): (users: seq<User>)
    ensures |users| == 2
    ensures forall i :: 0 <= i < |users| ==> !users[i].isAdmin && users[i].createdAt == users[i].lastActive == now
  {
    [ User(1, "جهاد", Checksum.PasswordHash("123456"), "assets/images/avatar-male.png", false, now, now),
      User(2, "حبيبتي", Checksum.PasswordHash("123456"), "assets/images/avatar-female.png", false, now, now) ]
  }

  /** The seeded posts: dated before seeding, each liked once by the user it lists. */
  function SeedPosts(now: int): (posts: seq<Post>)
    ensures forall i :: 0 <= i < |posts| ==> posts[i].timestamp < now && posts[i].likes == |posts[i].likedBy| == 1
  {
    [ Post(1, 1, "post 1", Some("assets/images/romantic-sunset.png"), now - HOUR_MS, 1, [2]),
      Post(2, 2, "post 2", Some("assets/images/romantic-flowers.png"), now - 2 * HOUR_MS, 1, [1]),
      Post(3, 1, "post 3", Some("assets/images/coffee-date.png"), now - 3 * HOUR_MS, 1, [2]) ]
  }

  /** The seeded conversation: dated before seeding, in chronological order. */
  function SeedMessages(now: int): (messages: seq<Message>)
    ensures forall i :: 0 <= i < |messages| ==> messages[i].timestamp < now
    ensures forall i, j :: 0 <= i < j < |messages| ==> messages[i].timestamp < messages[j].timestamp
  {
    [ Message(1, 1, 2, "message 1", now - 1_800_000, "text"),
      Message(2, 2, 1, "message 2", now - 1_500_000, "text"),
      Message(3, 1, 2, "message 3", now - 1_200_000, "text"),
      Message(4, 2, 1, "message 4", now - 900_000, "text") ]
  }

  /** The seeded story: posted before seeding, live for 24 hours from its posting. */
  function SeedStories(now: int): (stories: seq<Story>)
    ensures forall i :: 0 <= i < |stories| ==>
      stories[i].timestamp < now < stories[i].expiresAt == stories[i].timestamp + 24 * HOUR_MS
  {
    [ Story(1, 1, "story 1", "assets/images/romantic-sunset.png", now - HOUR_MS, now + 23 * HOUR_MS) ]
  }

  /** The seeded novels: dated before seeding. */
  function SeedNovels(now: int): (novels: seq<Novel>)
    ensures forall i :: 0 <= i < |novels| ==> novels[i].timestamp < now
  {
    [ Novel(1, "novel 1", "novel 1 text", 1, now - DAY_MS),
      Novel(2, "novel 2", "novel 2 text", 2, now - 2 * DAY_MS) ]
  }

  /** The seeded screenshot log: dated before seeding. */
  function SeedScreenshots(now: int): (shots: seq<Screenshot>)
    ensures forall i :: 0 <= i < |shots| ==> shots[i].timestamp < now
  {
    [ Screenshot(1, 1, "home", now - HOUR_MS),
      Screenshot(2, 2, "chat", now - 2 * HOUR_MS) ]
  }
}

=== FILE: sequences.dfy ===
/**
 * The array operations the store relies on, over sequences: `find`/`findIndex`/
 * `indexOf` (first match), `filter` (kept elements in order), `splice(i, 1)`
 * and `sort` by a numeric key.
 */
module Sequences {

  /** The index of the first element satisfying `p`, or -1 when there is none. */
  function FindIndex<T>(s: seq<T>, p: T -> bool): (i: int)
    ensures -1 <= i < |s|
    ensures i == -1 ==> forall j :: 0 <= j < |s| ==> !p(s[j])
    ensures 0 <= i ==> p(s[i]) && forall j :: 0 <= j < i ==> !p(s[j])
  {
    if s == [] then -1
    else if p(s[0]) then 0
    else
      var k := FindIndex(s[1..], p);
      if k == -1 then -1 else k + 1
  }

  /** A first match found in a prefix is still the first match after appending. */
  lemma FindIndexAppend<T>(s: seq<T>, t: seq<T>, p: T -> bool)
    ensures FindIndex(s + t, p) ==
      (if FindIndex(s, p) != -1 then FindIndex(s, p)
       else if FindIndex(t, p) == -1 then -1 else |s| + FindIndex(t, p))
  {
    var i, k, u := FindIndex(s + t, p), FindIndex(s, p), FindIndex(t, p);
    if k != -1 {
      assert (s + t)[k] == s[k];
      assert forall j :: 0 <= j < k ==> (s + t)[j] == s[j];
    } else if u == -1 {
      assert forall j :: 0 <= j < |s + t| ==> !p((s + t)[j]) by {
        forall j | 0 <= j < |s + t| ensures !p((s + t)[j]) {
          if j < |s| { assert (s + t)[j] == s[j]; } else { assert (s + t)[j] == t[j - |s|]; }
        }
      }
    } else {
      assert (s + t)[|s| + u] == t[u];
      forall j | 0 <= j < |s| + u ensures !p((s + t)[j]) {
        if j < |s| { assert (s + t)[j] == s[j]; } else { assert (s + t)[j] == t[j - |s|]; }
      }
    }
  }

  /** `array.indexOf(x)`. */
  function IndexOf<T(==)>(s: seq<T>, x: T): (i: int)
    ensures -1 <= i < |s|
    ensures i == -1 <==> x !in s
    ensures 0 <= i ==> s[i] == x && x !in s[..i]
  {
    FindIndex(s, y => y == x)
  }

  /** `array.splice(i, 1)`: the sequence without its element at `i`. */
  function RemoveAt<T>(s: seq<T>, i: nat): (r: seq<T>)
    requires i < |s|
    ensures |r| == |s| - 1
    ensures forall j :: 0 <= j < i ==> r[j] == s[j]
    ensures forall j :: i <= j < |r| ==> r[j] == s[j + 1]
    ensures multiset(r) == multiset(s) - multiset{s[i]}
  {
    assert s == s[..i] + [s[i]] + s[i + 1..];
    s[..i] + s[i + 1..]
  }

  /**
   * `array.filter(keep)`: every element satisfying `keep`, as many times as it
   * occurs, and nothing else; FilterConcat shows the order is kept.
   */
  function Filter<T>(s: seq<T>, keep: T -> bool): (r: seq<T>)
    ensures |r| <= |s|
    ensures forall i :: 0 <= i < |r| ==> r[i] in s && keep(r[i])
    ensures forall i :: 0 <= i < |s| && keep(s[i]) ==> s[i] in r
  {
    if s == [] then []
    else if keep(s[0]) then [s[0]] + Filter(s[1..], keep)
    else Filter(s[1..], keep)
  }

  /** Filtering keeps every occurrence of a passing element and no occurrence of another. */
  lemma {:induction false} FilterCounts<T>(s: seq<T>, keep: T -> bool)
    ensures forall x :: multiset(Filter(s, keep))[x] == if keep(x) then multiset(s)[x] else 0
  {
    if s != [] {
      assert s == [s[0]] + s[1..];
      FilterCounts(s[1..], keep);
    }
  }

  /** Filtering works piecewise, so it keeps the relative order of the kept elements. */
  lemma {:induction false} FilterConcat<T>(s: seq<T>, t: seq<T>, keep: T -> bool)
    ensures Filter(s + t, keep) == Filter(s, keep) + Filter(t, keep)
  {
    if s == [] {
      assert s + t == t;
    } else {
      assert (s + t)[1..] == s[1..] + t;
      FilterConcat(s[1..], t, keep);
    }
  }

  /** Filtering by a condition that implies the first one undoes nothing of it: filters compose. */
  lemma {:induction false} FilterOfFilter<T>(s: seq<T>, first: T -> bool, second: T -> bool)
    requires forall x :: second(x) ==> first(x)
    ensures Filter(Filter(s, first), second) == Filter(s, second)
  {
    if s != [] {
      FilterOfFilter(s[1..], first, second);
    }
  }

  /** Every element of `s` satisfies `keep`. */
  predicate All<T>(s: seq<T>, keep: T -> bool) {
    forall i :: 0 <= i < |s| ==> keep(s[i])
  }

  /** Filtering a sequence whose elements all pass changes nothing. */
  lemma {:induction false} FilterAll<T>(s: seq<T>, keep: T -> bool)
    requires All(s, keep)
    ensures Filter(s, keep) == s
  {
    if s != [] {
      FilterAll(s[1..], keep);
    }
  }

  /** Non-increasing by `key`: the order of `sort((a, b) => key(b) - key(a))`. */
  predicate SortedDesc<T>(s: seq<T>, key: T -> int) {
    forall i, j :: 0 <= i < j < |s| ==> key(s[i]) >= key(s[j])
  }

  /** Inserts `x` in front of the first element whose key is not larger than its own. */
  function Insert<T>(x: T, s: seq<T>, key: T -> int): (r: seq<T>)
    ensures |r| == |s| + 1
    ensures multiset(r) == multiset(s) + multiset{x}
  {
    if s == [] || key(x) >= key(s[0]) then [x] + s
    else
      assert s == [s[0]] + s[1..];
      [s[0]] + Insert(x, s[1..], key)
  }

  /** A bound on the keys of `x` and of `s` bounds the keys after inserting. */
  lemma {:induction false} InsertBounded<T>(x: T, s: seq<T>, key: T -> int, bound: int)
    requires key(x) <= bound
    requires forall j :: 0 <= j < |s| ==> key(s[j]) <= bound
    ensures forall j :: 0 <= j < |Insert(x, s, key)| ==> key(Insert(x, s, key)[j]) <= bound
  {
    if s != [] && key(x) < key(s[0]) {
      InsertBounded(x, s[1..], key, bound);
    }
  }

  /** Inserting into a non-increasing sequence keeps it non-increasing. */
  lemma {:induction false} InsertSorted<T>(x: T, s: seq<T>, key: T -> int)
    requires SortedDesc(s, key)
    ensures SortedDesc(Insert(x, s, key), key)
  {
    if s != [] && key(x) < key(s[0]) {
      var rest := s[1..];
      InsertSorted(x, rest, key);
      InsertBounded(x, rest, key, key(s[0]));
      var r := Insert(x, s, key);
      assert r == [s[0]] + Insert(x, rest, key);
      forall i, j | 0 <= i < j < |r| ensures key(r[i]) >= key(r[j]) {
        assert r[j] == Insert(x, rest, key)[j - 1];
        if 0 < i {
          assert r[i] == Insert(x, rest, key)[i - 1];
        }
      }
    }
  }

  /**
   * `array.sort` with a comparator by descending key: a permutation of the input
   * in non-increasing key order.
   */
  function SortDesc<T>(s: seq<T>, key: T -> int): (r: seq<T>)
    ensures SortedDesc(r, key)
    ensures multiset(r) == multiset(s)
    ensures |r| == |s|
  {
    if s == [] then []
    else
      assert s == [s[0]] + s[1..];
      var rest := SortDesc(s[1..], key);
      InsertSorted(s[0], rest, key);
      Insert(s[0], rest, key)
  }
}

=== FILE: store_spec.dfy ===
/**
 * What the store's operations do to the document, as functions of values:
 * the lookups, the like toggle, story expiry, the cleanup pass, the settings
 * merge and the records the `add*` operations create.
 */
module StoreSpec {
  import opened Records
  import opened Sequences
  import Checksum

  /** Screenshot logs older than this are dropped by `cleanup`. */
  const SCREENSHOT_RETENTION_MS: int := 30 * DAY_MS

  /** Stories expire this long after they are posted. */
  const STORY_LIFETIME_MS: int := DAY_MS

  // ---------------------------------------------------------------- lookups

  /** `users.findIndex(u => u.id === id)`. */
  function UserIndex(users: seq<User>, id: int): (i: int)
    ensures -1 <= i < |users|
    ensures i == -1 <==> forall j :: 0 <= j < |users| ==> users[j].id != id
    ensures 0 <= i ==> users[i].id == id && forall j :: 0 <= j < i ==> users[j].id != id
  {
    FindIndex(users, (u: User) => u.id == id)
  }

  /** `users.find(u => u.username === name)`, as an index. */
  function UsernameIndex(users: seq<User>, name: string): (i: int)
    ensures -1 <= i < |users|
    ensures i == -1 <==> forall j :: 0 <= j < |users| ==> users[j].username != name
    ensures 0 <= i ==> users[i].username == name && forall j :: 0 <= j < i ==> users[j].username != name
  {
    FindIndex(users, (u: User) => u.username == name)
  }

  /** `getUserById`: the first user with that id. */
  function UserById(users: seq<User>, id: int): (r: Option<User>)
    ensures r.Some? <==> exists j :: 0 <= j < |users| && users[j].id == id
    ensures r.Some? ==> r.value in users && r.value.id == id
    ensures r.Some? ==> r.value == users[UserIndex(users, id)]
  {
    var i := UserIndex(users, id);
    if i == -1 then None else Some(users[i])
  }

  /** `getUserByUsername`: the first user with that name. */
  function UserByUsername(users: seq<User>, name: string): (r: Option<User>)
    ensures r.Some? <==> exists j :: 0 <= j < |users| && users[j].username == name
    ensures r.Some? ==> r.value in users && r.value.username == name
    ensures r.Some? ==> r.value == users[UsernameIndex(users, name)]
  {
    var i := UsernameIndex(users, name);
    if i == -1 then None else Some(users[i])
  }

  /** `posts.find(p => p.id === postId)`, as an index. */
  function PostIndex(posts: seq<Post>, postId: int): (i: int)
    ensures -1 <= i < |posts|
    ensures i == -1 <==> forall j :: 0 <= j < |posts| ==> posts[j].id != postId
    ensures 0 <= i ==> posts[i].id == postId && forall j :: 0 <= j < i ==> posts[j].id != postId
  {
    FindIndex(posts, (p: Post) => p.id == postId)
  }

  // ---------------------------------------------------------------- likes

  /**
   * The like toggle on one post: remove the first occurrence of `userId` from
   * `likedBy` and decrement `likes`, or append `userId` and increment `likes`.
   */
  function ToggleLike(p: Post, userId: int): (q: Post)
    ensures q == p.(likes := q.likes, likedBy := q.likedBy)
    ensures q.likes - |q.likedBy| == p.likes - |p.likedBy|
    ensures userId in p.likedBy ==>
      q.likes == p.likes - 1 && multiset(q.likedBy) == multiset(p.likedBy) - multiset{userId}
    ensures userId in p.likedBy ==>
      var i := IndexOf(p.likedBy, userId); q.likedBy == p.likedBy[..i] + p.likedBy[i + 1..]
    ensures userId !in p.likedBy ==>
      q.likes == p.likes + 1 && q.likedBy == p.likedBy + [userId]
  {
    var i := IndexOf(p.likedBy, userId);
    if i > -1 then p.(likedBy := RemoveAt(p.likedBy, i), likes := p.likes - 1)
    else p.(likedBy := p.likedBy + [userId], likes := p.likes + 1)
  }

  /** Liking and then unliking a post one has not liked restores it exactly. */
  lemma ToggleTwiceFromAbsent(p: Post, userId: int)
    requires userId !in p.likedBy
    ensures ToggleLike(ToggleLike(p, userId), userId) == p
  {
    var q := ToggleLike(p, userId);
    var i := IndexOf(q.likedBy, userId);
    assert q.likedBy[..|p.likedBy|] == p.likedBy;
    assert i == |p.likedBy|;
    assert RemoveAt(q.likedBy, i) == p.likedBy;
  }

  /**
   * Unliking and then liking again restores the count and the likers, but the
   * liker moves to the end. It needs the liker to occur once: a duplicated
   * entry would be removed by both toggles.
   */
  lemma ToggleTwiceFromPresent(p: Post, userId: int)
    requires multiset(p.likedBy)[userId] == 1
    ensures var q := ToggleLike(ToggleLike(p, userId), userId);
      && q.likes == p.likes
      && multiset(q.likedBy) == multiset(p.likedBy)
      && q.likedBy == RemoveAt(p.likedBy, IndexOf(p.likedBy, userId)) + [userId]
  {
    var r := ToggleLike(p, userId);
    assert multiset(r.likedBy)[userId] == 0;
    assert userId !in r.likedBy;
  }

  /** No user appears twice among the likers. */
  predicate DistinctLikers(likedBy: seq<int>) {
    forall u :: u in likedBy ==> multiset(likedBy)[u] <= 1
  }

  /** A post's like count is the number of distinct users who like it (kept by every operation below). */
  predicate LikesConsistent(p: Post) {
    p.likes == |p.likedBy| && DistinctLikers(p.likedBy)
  }

  predicate AllLikesConsistent(posts: seq<Post>) {
    forall i :: 0 <= i < |posts| ==> LikesConsistent(posts[i])
  }

  /** The toggle keeps a post's like count equal to its number of distinct likers. */
  lemma ToggleKeepsLikesConsistent(p: Post, userId: int)
    requires LikesConsistent(p)
    ensures LikesConsistent(ToggleLike(p, userId))
  {
    var q := ToggleLike(p, userId);
    if userId in p.likedBy {
      assert multiset(q.likedBy) == multiset(p.likedBy) - multiset{userId};
      assert |q.likedBy| == |p.likedBy| - 1;
    } else {
      assert multiset(q.likedBy) == multiset(p.likedBy) + multiset{userId};
      assert |q.likedBy| == |p.likedBy| + 1;
    }
    forall u | u in q.likedBy ensures multiset(q.likedBy)[u] <= 1 {
    }
  }

  /** Toggling one post of a consistent collection keeps the collection consistent. */
  lemma ToggleKeepsAllConsistent(posts: seq<Post>, i: nat, userId: int)
    requires i < |posts| && AllLikesConsistent(posts)
    ensures AllLikesConsistent(posts[i := ToggleLike(posts[i], userId)])
  {
    ToggleKeepsLikesConsistent(posts[i], userId);
  }

  // ---------------------------------------------------------------- deletion

  /** `posts.filter(p => p.id !== postId)`. */
  function WithoutPost(posts: seq<Post>, postId: int): (r: seq<Post>)
    ensures forall i :: 0 <= i < |r| ==> r[i].id != postId && r[i] in posts
    ensures forall i :: 0 <= i < |posts| && posts[i].id != postId ==> posts[i] in r
  {
    Filter(posts, (p: Post) => p.id != postId)
  }

  /** Deletion removes every post carrying the id and keeps every other post exactly as often. */
  lemma WithoutPostCounts(posts: seq<Post>, postId: int)
    ensures forall q :: multiset(WithoutPost(posts, postId))[q] == if q.id != postId then multiset(posts)[q] else 0
  {
    FilterCounts(posts, (p: Post) => p.id != postId);
  }

  /** Deleting an id no post has leaves the posts as they are. */
  lemma WithoutAbsentPost(posts: seq<Post>, postId: int)
    requires PostIndex(posts, postId) == -1
    ensures WithoutPost(posts, postId) == posts
  {
    FilterAll(posts, (p: Post) => p.id != postId);
  }

  /** Deleting one post keeps the relative order of the others: it works piecewise. */
  lemma WithoutPostConcat(a: seq<Post>, b: seq<Post>, postId: int)
    ensures WithoutPost(a + b, postId) == WithoutPost(a, postId) + WithoutPost(b, postId)
  {
    FilterConcat(a, b, (p: Post) => p.id != postId);
  }

  /** Deleting posts keeps the remaining posts consistent. */
  lemma WithoutPostKeepsConsistent(posts: seq<Post>, postId: int)
    requires AllLikesConsistent(posts)
    ensures AllLikesConsistent(WithoutPost(posts, postId))
  {
    var r := WithoutPost(posts, postId);
    forall i | 0 <= i < |r| ensures LikesConsistent(r[i]) {
      var j :| 0 <= j < |posts| && posts[j] == r[i];
    }
  }

  // ---------------------------------------------------------------- stories and cleanup

  /** `getActiveStories`: the stored stories whose expiry lies strictly after `now`. */
  function ActiveStories(stories: seq<Story>, now: int): (r: seq<Story>)
    ensures forall i :: 0 <= i < |r| ==> r[i] in stories && r[i].expiresAt > now
    ensures forall i :: 0 <= i < |stories| && stories[i].expiresAt > now ==> stories[i] in r
  {
    Filter(stories, (st: Story) => st.expiresAt > now)
  }

  /** Every unexpired story is returned as often as it is stored, and no expired one. */
  lemma ActiveStoriesCounts(stories: seq<Story>, now: int)
    ensures forall st :: multiset(ActiveStories(stories, now))[st] == if st.expiresAt > now then multiset(stories)[st] else 0
  {
    FilterCounts(stories, (st: Story) => st.expiresAt > now);
  }

  /** The active stories keep their stored order: the query works piecewise. */
  lemma ActiveStoriesConcat(a: seq<Story>, b: seq<Story>, now: int)
    ensures ActiveStories(a + b, now) == ActiveStories(a, now) + ActiveStories(b, now)
  {
    FilterConcat(a, b, (st: Story) => st.expiresAt > now);
  }

  /** The screenshot logs newer than thirty days before `now`. */
  function RecentScreenshots(shots: seq<Screenshot>, now: int): (r: seq<Screenshot>)
    ensures forall i :: 0 <= i < |r| ==> r[i] in shots && r[i].timestamp > now - SCREENSHOT_RETENTION_MS
    ensures forall i :: 0 <= i < |shots| && shots[i].timestamp > now - SCREENSHOT_RETENTION_MS ==> shots[i] in r
  {
    Filter(shots, (s: Screenshot) => s.timestamp > now - SCREENSHOT_RETENTION_MS)
  }

  /** Pruning keeps every screenshot of the last retention period as often as stored, and no older one. */
  lemma RecentScreenshotsCounts(shots: seq<Screenshot>, now: int)
    ensures forall s :: multiset(RecentScreenshots(shots, now))[s] ==
                          if s.timestamp > now - SCREENSHOT_RETENTION_MS then multiset(shots)[s] else 0
  {
    FilterCounts(shots, (s: Screenshot) => s.timestamp > now - SCREENSHOT_RETENTION_MS);
  }

  /** The retained screenshots keep their stored order: the pruning works piecewise. */
  lemma RecentScreenshotsConcat(a: seq<Screenshot>, b: seq<Screenshot>, now: int)
    ensures RecentScreenshots(a + b, now) == RecentScreenshots(a, now) + RecentScreenshots(b, now)
  {
    FilterConcat(a, b, (s: Screenshot) => s.timestamp > now - SCREENSHOT_RETENTION_MS);
  }

  /** The document after `cleanup` at `now`: only stories and screenshots are pruned. */
  function CleanedUp(d: Document, now: int): (r: Document)
    ensures r.users == d.users && r.posts == d.posts && r.messages == d.messages
    ensures r.novels == d.novels && r.settings == d.settings
    ensures |r.stories| <= |d.stories| && |r.screenshots| <= |d.screenshots|
    ensures r.stories == ActiveStories(d.stories, now) && r.screenshots == RecentScreenshots(d.screenshots, now)
  {
    d.(stories := ActiveStories(d.stories, now), screenshots := RecentScreenshots(d.screenshots, now))
  }

  /**
   * Purging is lazy and invisible: after a cleanup at `now`, the active stories
   * and the retained screenshots at any later time are what they would have been
   * without it. With `later == now` this makes the cleanup idempotent.
   */
  lemma CleanupInvisibleLater(d: Document, now: int, later: int)
    requires now <= later
    ensures ActiveStories(CleanedUp(d, now).stories, later) == ActiveStories(d.stories, later)
    ensures RecentScreenshots(CleanedUp(d, now).screenshots, later) == RecentScreenshots(d.screenshots, later)
    ensures CleanedUp(CleanedUp(d, now), now) == CleanedUp(d, now)
  {
    FilterOfFilter(d.stories, (st: Story) => st.expiresAt > now, (st: Story) => st.expiresAt > later);
    FilterOfFilter(d.screenshots, (s: Screenshot) => s.timestamp > now - SCREENSHOT_RETENTION_MS,
      (s: Screenshot) => s.timestamp > later - SCREENSHOT_RETENTION_MS);
    FilterOfFilter(d.stories, (st: Story) => st.expiresAt > now, (st: Story) => st.expiresAt > now);
    FilterOfFilter(d.screenshots, (s: Screenshot) => s.timestamp > now - SCREENSHOT_RETENTION_MS,
      (s: Screenshot) => s.timestamp > now - SCREENSHOT_RETENTION_MS);
  }

  // ---------------------------------------------------------------- new records

  /** `addUser`: the caller's fields, the hashed password, never an admin, both stamps `now`. */
  function NewUser(input: UserInput, id: int, now: int): (u: User)
    ensures u.id == id && u.username == input.username && u.avatar == input.avatar
    ensures !u.isAdmin && u.createdAt == now && u.lastActive == now
    ensures Checksum.VerifyPassword(input.password, u.password)
  {
    User(id, input.username, Checksum.PasswordHash(input.password), input.avatar, false, now, now)
  }

  /** `addPost`: a post nobody has liked yet. */
  function NewPost(input: PostInput, id: int, now: int): (p: Post)
    ensures p.id == id && p.userId == input.userId && p.content == input.content && p.image == input.image
    ensures p.timestamp == now && LikesConsistent(p) && p.likes == 0
  {
    Post(id, input.userId, input.content, input.image, now, 0, [])
  }

  /** `addMessage`: the caller's fields, stamped `now`. */
  function NewMessage(input: MessageInput, id: int, now: int): (m: Message)
    ensures m.id == id && m.senderId == input.senderId && m.receiverId == input.receiverId
    ensures m.content == input.content && m.kind == input.kind && m.timestamp == now
  {
    Message(id, input.senderId, input.receiverId, input.content, now, input.kind)
  }

  /** `addNovel`: the caller's fields, stamped `now`. */
  function NewNovel(input: NovelInput, id: int, now: int): (n: Novel)
    ensures n.id == id && n.title == input.title && n.content == input.content
    ensures n.authorId == input.authorId && n.timestamp == now
  {
    Novel(id, input.title, input.content, input.authorId, now)
  }

  /** `addStory`: a story expiring one day after it is posted. */
  function NewStory(input: StoryInput, id: int, now: int): (st: Story)
    ensures st.id == id && st.userId == input.userId && st.content == input.content && st.media == input.media
    ensures st.timestamp == now && st.expiresAt - st.timestamp == 86_400_000
  {
    Story(id, input.userId, input.content, input.media, now, now + STORY_LIFETIME_MS)
  }

  /**
   * A story posted at `posted` is listed, after the stories already active, by
   * every query strictly before `posted` plus 24 hours and by none after.
   */
  lemma NewStoryActiveForOneDay(stories: seq<Story>, input: StoryInput, id: int, posted: int, now: int)
    ensures ActiveStories(stories + [NewStory(input, id, posted)], now) ==
      ActiveStories(stories, now) + (if now < posted + 86_400_000 then [NewStory(input, id, posted)] else [])
  {
    FilterConcat(stories, [NewStory(input, id, posted)], (st: Story) => st.expiresAt > now);
  }

  /** `addScreenshot`: who visited which page, stamped `now`. */
  function NewScreenshot(userId: int, page: string, id: int, now: int): (s: Screenshot)
    ensures s.id == id && s.userId == userId && s.page == page && s.timestamp == now
  {
    Screenshot(id, userId, page, now)
  }

  /** Adding a fresh post keeps every post's like count consistent. */
  lemma AddPostKeepsConsistent(posts: seq<Post>, input: PostInput, id: int, now: int)
    requires AllLikesConsistent(posts)
    ensures AllLikesConsistent(posts + [NewPost(input, id, now)])
  {
    var r := posts + [NewPost(input, id, now)];
    forall i | 0 <= i < |r| ensures LikesConsistent(r[i]) {
      if i < |posts| { assert r[i] == posts[i]; }
    }
  }

  /** The seeded posts start consistent. */
  lemma DefaultPostsConsistent(now: int)
    ensures AllLikesConsistent(DefaultDocument(now).posts)
  {
    forall i | 0 <= i < |DefaultDocument(now).posts| ensures LikesConsistent(DefaultDocument(now).posts[i]) {
      var p := DefaultDocument(now).posts[i];
      forall u ensures multiset(p.likedBy)[u] <= 1 {
        assert |p.likedBy| == 1;
        assert p.likedBy == [p.likedBy[0]];
      }
    }
  }

  // ---------------------------------------------------------------- settings

  /** `{ ...settings, ...patch }`: the patch's keys take its values, every other key keeps its own. */
  function MergeSettings(settings: Settings, patch: Settings): (r: Settings)
    ensures r.Keys == settings.Keys + patch.Keys
    ensures forall k :: k in patch ==> r[k] == patch[k]
    ensures forall k :: k in settings && k !in patch ==> r[k] == settings[k]
  {
    settings + patch
  }

  /** Reading a key after the merge: the patch's value when it has the key, the old reading otherwise. */
  lemma GetAfterMerge(settings: Settings, patch: Settings, key: string)
    ensures Get(MergeSettings(settings, patch), key) == if key in patch then Get(patch, key) else Get(settings, key)
  {
  }

  /**
   * `settings.features[feature] = status`: None when `features` is not an object
   * (the assignment throws); otherwise only that flag changes.
   */
  function SetFeature(settings: Settings, feature: string, status: bool): (r: Option<Settings>)
    ensures r.None? <==> !("features" in settings && settings["features"].Flags?)
    ensures r.Some? ==> r.value.Keys == settings.Keys
    ensures r.Some? ==> forall k :: k in settings && k != "features" ==> r.value[k] == settings[k]
    ensures r.Some? ==> r.value["features"].Flags? && r.value["features"].flags.Keys == settings["features"].flags.Keys + {feature}
    ensures r.Some? ==> r.value["features"].flags[feature] == status
    ensures r.Some? ==> forall f :: f in settings["features"].flags && f != feature ==>
      r.value["features"].flags[f] == settings["features"].flags[f]
  {
    match Get(settings, "features")
    case Some(Flags(flags)) => Some(settings["features" := Flags(flags[feature := status])])
    case _ => None
  }

  // ---------------------------------------------------------------- sorting keys

  function PostTime(p: Post): int { p.timestamp }
  function NovelTime(n: Novel): int { n.timestamp }
  function ScreenshotTime(s: Screenshot): int { s.timestamp }
  /** Messages are listed oldest first: descending by the negated time. */
  function MessageAge(m: Message): int { -m.timestamp }
}
